=== FILE: README.md ===
# Pharmacy inventory intelligence, modelled in Dafny

The system is a pharmacy network back office. Its inventory controller
(`InventoryController` on the Express server) answers the stock questions:
lots below a threshold, storage-condition compliance of a pharmacy, restock
recommendations, per-medication statistics, the sales report, the inventory
snapshot, write-offs, the write-off report and quantity updates. The web
clients check their forms before they call it: the filter and usage panels
of the reports page, the transaction history filter, the add / update /
write-off forms and the low-stock threshold of the inventory page, the IoT
device form, the pharmacy form and the medicine form of the dashboard.

The Dafny project holds one module per concern:

- `Util`, `Entities`: options, ceiling division, ordering of names, number
  formatting; the stored documents (medication, pharmacy, lot, transaction,
  write-off, storage sample, IoT device) as datatypes and the id lookups.
- `Grouping`: the group-by-key-and-sum step shared by the sales report and
  the write-off report (`Tally`), its in-place fold step (`Accumulate`), the
  stable descending sort and the top-five slice.
- `StockSignals`, `Compliance`, `SalesReport`, `Statistics`, `Snapshot`,
  `WriteOffReport`: the read-only controller operations as functions over
  the collections, each proved against the behaviour the controller promises.
- `LotStore`: the two operations that change stock. The pure transition
  functions `WriteOffStep` and `UpdateStep` are the specification; the class
  `LotStore.LotStore` keeps the lots and the ledger in fields and its methods
  are proved to perform exactly those transitions.
- `ClientForms`, `ReportsPage`, `TransactionsPage`, `InventoryPage`,
  `IoTDevicesPage`, `PharmaciesPage`, `DashboardPage`: the client
  validators, the query strings they build and the usage figures of the
  reports page, each linked to the server operation it feeds where there is
  one.

Collections are sequences in store order. Dates are integers (milliseconds
since the epoch). The current time is a parameter `now`; the user who writes
off stock is a parameter too. Amounts are integers; averages and the usage
ratio are reals.

### Behaviour kept as the code has it

- The low-stock and restock threshold defaults to 10 when absent; any value
  that is supplied, 0 included, is used.
- A pharmacy with samples but no IoT device makes the compliance check fail
  (the device lookup yields null and the server answers 500), rather than
  answering "not found".
- The statistics list only medications that have at least one lot (the
  aggregation groups lots); rows whose catalog entry is gone keep an absent
  name and sort first.
- The sales report groups by lot reference and name, so two lots of one
  medication are two entries; its `medicationId` filter compares against the
  lot reference.
- The usage ratio falls back to 0 only for 0/0; when sales and write-offs
  sum to 0 with non-zero sales it is infinite.
- A lot whose catalog medication is gone aborts the whole restock request,
  and likewise the write-off report when a matching record's medication is
  gone.
- An empty query parameter is skipped by the controller's `if (x)` tests exactly like an absent one; filters hold only non-empty text (`Util.QueryText`).
- The server checks neither date order nor the sign of a write-off
  quantity: a negative quantity passes the `!quantity` guard and adds stock.

## Model

| member | source | states |
|---|---|---|
| `StockSignals.EffectiveThreshold` | Lab5/pzpi-22-8-petrenko-kyrylo-lab5/server/controllers/inventoryController.js:87 | an absent threshold becomes 10; any supplied value, 0 included, is used as is |
| `StockSignals.LowInventory` | Lab5/pzpi-22-8-petrenko-kyrylo-lab5/server/controllers/inventoryController.js:85-95 | a lot is listed iff its quantity is below the effective threshold |
| `StockSignals.LowInventoryZero` | Lab5/pzpi-22-8-petrenko-kyrylo-lab5/server/controllers/inventoryController.js:87-88 | with non-negative stock an explicit threshold of 0 lists no lot |
| `StockSignals.LowInventoryMonotone` | Lab5/pzpi-22-8-petrenko-kyrylo-lab5/server/controllers/inventoryController.js:88 | raising the threshold never drops a lot from the list |
| `StockSignals.NearExpirationIsElapsedFraction` | Lab5/pzpi-22-8-petrenko-kyrylo-lab5/server/controllers/inventoryController.js:152-154 | the integer near-expiry rule agrees with `elapsed / (days * 86400000) >= 0.95` for every non-zero shelf life |
| `StockSignals.NearExpirationBoundary` | Lab5/pzpi-22-8-petrenko-kyrylo-lab5/server/controllers/inventoryController.js:154 | a lot at exactly 95% of its shelf life is near expiry; 1 ms earlier it is not |
| `StockSignals.PharmacyName` | Lab5/pzpi-22-8-petrenko-kyrylo-lab5/server/controllers/inventoryController.js:164 | the pharmacy's name, or the unknown-pharmacy sentinel when the pharmacy is missing or its name is empty |
| `StockSignals.RecordFor` | Lab5/pzpi-22-8-petrenko-kyrylo-lab5/server/controllers/inventoryController.js:159-171 | a record carries the lot's quantity and date, the medication's shelf life, 2 x threshold, the expiry reason iff near expiry, the medication's name or the unknown-medication placeholder for an empty name, and the pharmacy's name or the unknown-pharmacy placeholder when the pharmacy is missing or unnamed |
| `StockSignals.FlaggedLots` | Lab5/pzpi-22-8-petrenko-kyrylo-lab5/server/controllers/inventoryController.js:151-157 | a lot is kept iff it is near expiry or below the threshold |
| `StockSignals.RestockRecommendations` | Lab5/pzpi-22-8-petrenko-kyrylo-lab5/server/controllers/inventoryController.js:126-179 | fails iff some lot's medication is missing; otherwise exactly one record per flagged lot, so at most one per lot |
| `StockSignals.RestockRecordsDescribeFlaggedLots` | Lab5/pzpi-22-8-petrenko-kyrylo-lab5/server/controllers/inventoryController.js:151-172 | the k-th record describes the k-th flagged lot; quantity 2 x threshold; expiry reason iff near expiry, low-stock reason iff low and not near expiry; medication and pharmacy names with their placeholders |
| `StockSignals.RestockCoversFlaggedLots` | Lab5/pzpi-22-8-petrenko-kyrylo-lab5/server/controllers/inventoryController.js:151-172 | a lot yields a record iff it is near expiry or low: then it sits among the flagged lots and the record at its place is the one built for it |
| `StockSignals.RestockExample` | Lab5/pzpi-22-8-petrenko-kyrylo-lab5/server/controllers/inventoryController.js:126-179 | a 100-day medication made 96 days ago, 50 in stock, threshold 10, gives one near-expiry record recommending 20 |
| `Compliance.LatestSample` | Lab5/pzpi-22-8-petrenko-kyrylo-lab5/server/controllers/inventoryController.js:100-102 | none iff the pharmacy has no sample; otherwise one of its samples with the greatest date |
| `Compliance.DeviceOf` | Lab5/pzpi-22-8-petrenko-kyrylo-lab5/server/controllers/inventoryController.js:109 | none iff the pharmacy has no device; otherwise one of its devices |
| `Compliance.CheckStorageConditions` | Lab5/pzpi-22-8-petrenko-kyrylo-lab5/server/controllers/inventoryController.js:97-124 | no sample gives not-found; a sample without a device fails; otherwise the verdict is compliant iff the reading lies in both bands, bounds included, and the reading is returned |
| `Compliance.OlderSampleIgnored` | Lab5/pzpi-22-8-petrenko-kyrylo-lab5/server/controllers/inventoryController.js:100-102 | adding a sample older than the latest does not change the verdict |
| `Compliance.ComplianceExample` | Lab5/pzpi-22-8-petrenko-kyrylo-lab5/server/controllers/inventoryController.js:111-117 | 30 degrees against 15..25 is reported out of range with the reading |
| `SalesReport.JoinSales` | Lab5/pzpi-22-8-petrenko-kyrylo-lab5/server/controllers/inventoryController.js:288-306 | a row is in the join iff some transaction's lot and that lot's medication both exist and the row carries the transaction's lot, quantity, price and date with the lot's pharmacy and the medication's name and category; a transaction whose lot or medication is gone is dropped; never more rows than transactions |
| `SalesReport.MatchingSales` | Lab5/pzpi-22-8-petrenko-kyrylo-lab5/server/controllers/inventoryController.js:272-308 | a row is kept iff category, pharmacy, lot and both inclusive date bounds match |
| `SalesReport.GetSalesReport` | Lab5/pzpi-22-8-petrenko-kyrylo-lab5/server/controllers/inventoryController.js:270-353 | at most five top entries, in non-increasing quantity |
| `SalesReport.SalesReportTotals` | Lab5/pzpi-22-8-petrenko-kyrylo-lab5/server/controllers/inventoryController.js:315-326 | the totals are the units and the quantity x price revenue of the matching sales and the sums over all groups |
| `SalesReport.SalesReportEmpty` | Lab5/pzpi-22-8-petrenko-kyrylo-lab5/server/controllers/inventoryController.js:348 | no matching sale gives {0, 0, []} |
| `SalesReport.SalesTopIsPrefix` | Lab5/pzpi-22-8-petrenko-kyrylo-lab5/server/controllers/inventoryController.js:341 | the top list is the first min(5, groups) groups of the sorted grouping |
| `SalesReport.SalesGroupOfLot` | Lab5/pzpi-22-8-petrenko-kyrylo-lab5/server/controllers/inventoryController.js:310-317 | every matching sale has its own (lot, name) group holding that key's units and revenue |
| `Grouping.Accumulate` | Lab5/pzpi-22-8-petrenko-kyrylo-lab5/server/controllers/inventoryController.js:433-439 | one in-place fold step: the entry is added to the group with its key, or pushed as a new group |
| `Grouping.TallyKeysDistinct` | Lab5/pzpi-22-8-petrenko-kyrylo-lab5/server/controllers/inventoryController.js:310-317 | grouping yields each key once |
| `Grouping.TallyPreservesSums` | Lab5/pzpi-22-8-petrenko-kyrylo-lab5/server/controllers/inventoryController.js:315-316 | grouping preserves total quantity and amount |
| `Grouping.TallyKeys` | Lab5/pzpi-22-8-petrenko-kyrylo-lab5/server/controllers/inventoryController.js:310-317 | a key has a group iff some item has that key |
| `Grouping.TallyGroupTotals` | Lab5/pzpi-22-8-petrenko-kyrylo-lab5/server/controllers/inventoryController.js:315-316 | each group holds the totals of the items with its key |
| `Grouping.SortByQuantityDesc` | Lab5/pzpi-22-8-petrenko-kyrylo-lab5/server/controllers/inventoryController.js:320 | the result is ordered by non-increasing quantity |
| `Grouping.SortByQuantityDescContents` | Lab5/pzpi-22-8-petrenko-kyrylo-lab5/server/controllers/inventoryController.js:442 | sorting is a permutation and keeps length and sums |
| `Grouping.GroupOfItem` | Lab5/pzpi-22-8-petrenko-kyrylo-lab5/server/controllers/inventoryController.js:310-320 | after grouping and sorting, each item's key has a group carrying that key's totals |
| `Grouping.Top` | Lab5/pzpi-22-8-petrenko-kyrylo-lab5/server/controllers/inventoryController.js:443 | the first min(length, 5) entries |
| `WriteOffReport.MatchingWriteOffs` | Lab5/pzpi-22-8-petrenko-kyrylo-lab5/server/controllers/inventoryController.js:411-422 | a record is kept iff pharmacy, reason and the inclusive date bounds match |
| `WriteOffReport.SumWriteOffs` | Lab5/pzpi-22-8-petrenko-kyrylo-lab5/server/controllers/inventoryController.js:426 | the first fold computes the ledger sum of the matching quantities |
| `WriteOffReport.TallyReasons` | Lab5/pzpi-22-8-petrenko-kyrylo-lab5/server/controllers/inventoryController.js:427-430 | the second fold computes the per-reason grouping |
| `WriteOffReport.TallyNameReasons` | Lab5/pzpi-22-8-petrenko-kyrylo-lab5/server/controllers/inventoryController.js:431-441 | the third fold succeeds iff every record's medication resolves, and then computes the (name, reason) grouping |
| `WriteOffReport.GetWriteOffReport` | Lab5/pzpi-22-8-petrenko-kyrylo-lab5/server/controllers/inventoryController.js:409-450 | the report the three folds, the sort and the slice compute is the specified report |
| `WriteOffReport.WriteOffReasonsSumToTotal` | Lab5/pzpi-22-8-petrenko-kyrylo-lab5/server/controllers/inventoryController.js:426-430 | the total is the sum of matching quantities and of the per-reason values; each reason appears once with its records' quantity |
| `WriteOffReport.WriteOffTopMedications` | Lab5/pzpi-22-8-petrenko-kyrylo-lab5/server/controllers/inventoryController.js:431-443 | at most five top entries in non-increasing quantity; the full (name, reason) grouping sums to the total with distinct keys |
| `WriteOffReport.WriteOffReportFailure` | Lab5/pzpi-22-8-petrenko-kyrylo-lab5/server/controllers/inventoryController.js:433-434 | the request fails iff a matching record's medication is missing |
| `Statistics.MedicationIds` | Lab5/pzpi-22-8-petrenko-kyrylo-lab5/server/controllers/inventoryController.js:185-186 | the group keys: each medication some lot refers to, exactly once |
| `Statistics.FirstSaleDate` | Lab5/pzpi-22-8-petrenko-kyrylo-lab5/server/controllers/inventoryController.js:217 | absent iff there is no sale; otherwise the earliest sale date |
| `Statistics.MonthsSinceFirstSale` | Lab5/pzpi-22-8-petrenko-kyrylo-lab5/server/controllers/inventoryController.js:221-236 | 0 with no sale; otherwise the least m with now - first <= m x 30 days |
| `Statistics.AverageSalesPerMonth` | Lab5/pzpi-22-8-petrenko-kyrylo-lab5/server/controllers/inventoryController.js:239-247 | sales divided by months when months > 0, else 0 |
| `Statistics.Mean` | Lab5/pzpi-22-8-petrenko-kyrylo-lab5/server/controllers/inventoryController.js:188 | the average times the count is the sum |
| `Statistics.GroupRow` | Lab5/pzpi-22-8-petrenko-kyrylo-lab5/server/controllers/inventoryController.js:185-257 | a row holds the group's stock, a mean price with mean x lot count = price sum, and the sales rate of its lots |
| `Statistics.NameOf` | Lab5/pzpi-22-8-petrenko-kyrylo-lab5/server/controllers/inventoryController.js:199-204 | the catalog name, absent iff the medication is gone |
| `Statistics.InsertByName` | Lab5/pzpi-22-8-petrenko-kyrylo-lab5/server/controllers/inventoryController.js:259 | insertion keeps rows ordered by name, absent names first |
| `Statistics.SortByNameContents` | Lab5/pzpi-22-8-petrenko-kyrylo-lab5/server/controllers/inventoryController.js:259 | sorting by name is a permutation that keeps the stock total |
| `Statistics.InventoryStatistics` | Lab5/pzpi-22-8-petrenko-kyrylo-lab5/server/controllers/inventoryController.js:181-268 | the rows are ordered by medication name |
| `Statistics.StatisticsAccountsForAllStock` | Lab5/pzpi-22-8-petrenko-kyrylo-lab5/server/controllers/inventoryController.js:185-187 | as many rows as grouped medications, every grouped medication's own row among them, and the rows' stock adds up to the stock of all lots |
| `Statistics.StatisticsRowsAreGroups` | Lab5/pzpi-22-8-petrenko-kyrylo-lab5/server/controllers/inventoryController.js:185-257 | each row is the row of one medication's group, with its name and the sales of its lots |
| `Statistics.StatisticsExample` | Lab5/pzpi-22-8-petrenko-kyrylo-lab5/server/controllers/inventoryController.js:226-243 | a first sale 40 days ago gives 2 months; 45 units then give 22.5 per month |
| `Snapshot.SelectedLots` | Lab5/pzpi-22-8-petrenko-kyrylo-lab5/server/controllers/inventoryController.js:357-362 | a lot is selected iff it matches the optional pharmacy and medication filters |
| `Snapshot.InventorySnapshot` | Lab5/pzpi-22-8-petrenko-kyrylo-lab5/server/controllers/inventoryController.js:355-370 | one row per selected lot, in order, with its id, its medication (id and name, or none when the catalog entry is gone) and its quantity |
| `Snapshot.SnapshotAccountsForStock` | Lab5/pzpi-22-8-petrenko-kyrylo-lab5/server/controllers/inventoryController.js:362-364 | the rows' quantities add up to the selected lots' stock |
| `Snapshot.UnfilteredSnapshotIsComplete` | Lab5/pzpi-22-8-petrenko-kyrylo-lab5/server/controllers/inventoryController.js:358-362 | with no filter every lot is listed, empty ones included |
| `Snapshot.SnapshotFiltersCompose` | Lab5/pzpi-22-8-petrenko-kyrylo-lab5/server/controllers/inventoryController.js:359-360 | both filters select what the pharmacy filter and then the medication filter select |
| `LotStore.WriteOffStep` | Lab5/pzpi-22-8-petrenko-kyrylo-lab5/server/controllers/inventoryController.js:372-407 | missing fields, unknown lot and over-draw are refused with the store unchanged; success decrements the lot by q and appends one record with q, reason, the lot's medication and pharmacy |
| `LotStore.UpdateStep` | Lab5/pzpi-22-8-petrenko-kyrylo-lab5/server/controllers/inventoryController.js:67-83 | an unknown lot gives not-found; otherwise only that lot's quantity is overwritten |
| `LotStore.WriteOffConservesStock` | Lab5/pzpi-22-8-petrenko-kyrylo-lab5/server/controllers/inventoryController.js:386-400 | stock on hand plus stock written off is unchanged by any write-off request |
| `LotStore.WriteOffKeepsStockNonNegative` | Lab5/pzpi-22-8-petrenko-kyrylo-lab5/server/controllers/inventoryController.js:386-390 | non-negative stock stays non-negative |
| `LotStore.WriteOffTouchesOneLot` | Lab5/pzpi-22-8-petrenko-kyrylo-lab5/server/controllers/inventoryController.js:390-391 | only the addressed lot changes, and only in its quantity |
| `LotStore.WriteOffSucceedsIff` | Lab5/pzpi-22-8-petrenko-kyrylo-lab5/server/controllers/inventoryController.js:377-390 | success iff the fields are present, the lot exists and holds at least q |
| `LotStore.NegativeWriteOffAddsStock` | Lab5/pzpi-22-8-petrenko-kyrylo-lab5/server/controllers/inventoryController.js:377 | a negative quantity passes the `!quantity` guard and adds stock |
| `LotStore.WriteOffScenario` | Lab5/pzpi-22-8-petrenko-kyrylo-lab5/server/controllers/inventoryController.js:386-391 | writing off 3 of 3 empties the lot; a further 1 is refused and changes nothing |
| `LotStore.UpdateChangesStockByDifference` | Lab5/pzpi-22-8-petrenko-kyrylo-lab5/server/controllers/inventoryController.js:76 | the overwrite changes total stock by new minus old quantity |
| `LotStore.UpdateIdempotent` | Lab5/pzpi-22-8-petrenko-kyrylo-lab5/server/controllers/inventoryController.js:76-77 | repeating an overwrite changes nothing further |
| `LotStore.LotStore.FindById` | Lab5/pzpi-22-8-petrenko-kyrylo-lab5/server/controllers/inventoryController.js:70 | the position of the first lot with the id, or the length when none |
| `LotStore.LotStore.WriteOffMedication` | Lab5/pzpi-22-8-petrenko-kyrylo-lab5/server/controllers/inventoryController.js:372-407 | the store's new state and outcome are those of WriteOffStep on the old state |
| `LotStore.LotStore.UpdateMedicationQuantity` | Lab5/pzpi-22-8-petrenko-kyrylo-lab5/server/controllers/inventoryController.js:67-83 | the store's new state and outcome are those of UpdateStep on the old state |
| `ClientForms.ValidateFilter` | Lab3/pzpi-22-8-petrenko-kyrylo-lab3/src/pages/Reports.tsx:237-243 | pharmacy error iff no pharmacy; date-order error iff both dates set and start later than end |
| `ClientForms.FilterValidIff` | Lab3/pzpi-22-8-petrenko-kyrylo-lab3/src/pages/Reports.tsx:241-245 | the request proceeds iff a pharmacy is chosen and the dates are not reversed; one date alone or equal dates pass |
| `ClientForms.ValidFilterWindowNonEmpty` | Lab3/pzpi-22-8-petrenko-kyrylo-lab3/src/pages/Reports.tsx:241-243 | a passing filter with two valid dates has start <= end |
| `ClientForms.AppendIfSet` | Lab3/pzpi-22-8-petrenko-kyrylo-lab3/src/pages/Reports.tsx:247-250 | a parameter is appended iff its value is non-empty |
| `ClientForms.Lookup` | Lab3/pzpi-22-8-petrenko-kyrylo-lab3/src/pages/Reports.tsx:247-250 | the first value under a name, absent iff no parameter has the name |
| `ReportsPage.ReportRequest` | Lab3/pzpi-22-8-petrenko-kyrylo-lab3/src/pages/Reports.tsx:237-250 | blocked iff the filter check fails, otherwise sends the report query (the write-off request at lines 279-292 is the same code) |
| `ReportsPage.ReportQueryCarriesSetFields` | Lab3/pzpi-22-8-petrenko-kyrylo-lab3/src/pages/Reports.tsx:247-250 | pharmacyId, startDate and endDate are each sent iff set, with the field's text |
| `ReportsPage.ReportRequestNamesPharmacy` | Lab3/pzpi-22-8-petrenko-kyrylo-lab3/src/pages/Reports.tsx:238-248 | a request that is sent always carries the pharmacy |
| `ReportsPage.SnapshotRequest` | Lab3/pzpi-22-8-petrenko-kyrylo-lab3/src/pages/Reports.tsx:321-329 | blocked iff no pharmacy; otherwise sends only pharmacyId |
| `ReportsPage.SnapshotIgnoresDates` | Lab3/pzpi-22-8-petrenko-kyrylo-lab3/src/pages/Reports.tsx:321-329 | reversed dates block the reports but not the snapshot |
| `ReportsPage.OrZero` | Lab3/pzpi-22-8-petrenko-kyrylo-lab3/src/pages/Reports.tsx:366-367 | a missing total counts as 0 |
| `ReportsPage.UsageRatio` | Lab3/pzpi-22-8-petrenko-kyrylo-lab3/src/pages/Reports.tsx:369 | 100 x sales / usage when usage is non-zero; at zero usage the ratio is 0 iff sales is 0 |
| `ReportsPage.UsageReportOf` | Lab3/pzpi-22-8-petrenko-kyrylo-lab3/src/pages/Reports.tsx:365-371 | present iff both reports are present (the snapshot list always is, empty at first); usage = sales + write-offs |
| `ReportsPage.UsageRatioIsPercentage` | Lab3/pzpi-22-8-petrenko-kyrylo-lab3/src/pages/Reports.tsx:369 | for non-negative totals the ratio is finite, in [0, 100], 0 iff no sales, and ratio x usage = 100 x sales |
| `ReportsPage.UsageRatioInfinite` | Lab3/pzpi-22-8-petrenko-kyrylo-lab3/src/pages/Reports.tsx:369 | the zero fallback catches only 0/0: sales 5 and write-offs -5 give +Infinity |
| `TransactionsPage.FetchTransactions` | Lab3/pzpi-22-8-petrenko-kyrylo-lab3/src/pages/Transactions.tsx:192-206 | blocked iff the filter check fails; a sent request carries the non-empty pharmacy in its path |
| `TransactionsPage.HistoryQueryCarriesDates` | Lab3/pzpi-22-8-petrenko-kyrylo-lab3/src/pages/Transactions.tsx:202-206 | the query carries startDate and endDate each iff set, and never the pharmacy |
| `InventoryPage.ValidateAddForm` | Lab3/pzpi-22-8-petrenko-kyrylo-lab3/src/pages/Inventory.tsx:478-489 | price and quantity errors iff negative; date error iff empty or later than now |
| `InventoryPage.AddFormValidIff` | Lab3/pzpi-22-8-petrenko-kyrylo-lab3/src/pages/Inventory.tsx:478-489 | the add form passes iff both ids and the batch code are set, price and quantity >= 0, and the date is set and not in the future |
| `InventoryPage.AddFormAcceptsUnparsableDate` | Lab3/pzpi-22-8-petrenko-kyrylo-lab3/src/pages/Inventory.tsx:483-484 | an unparsable date passes, because comparing an invalid date is false |
| `InventoryPage.ValidateUpdateForm` | Lab3/pzpi-22-8-petrenko-kyrylo-lab3/src/pages/Inventory.tsx:491-496 | error iff the new quantity is negative; 0 passes |
| `InventoryPage.ValidUpdateKeepsStockNonNegative` | Lab3/pzpi-22-8-petrenko-kyrylo-lab3/src/pages/Inventory.tsx:493 | an overwrite the form lets through keeps all stock non-negative on the server |
| `InventoryPage.ValidateWriteOffForm` | Lab3/pzpi-22-8-petrenko-kyrylo-lab3/src/pages/Inventory.tsx:498-511 | id and reason errors iff empty; exceeds iff the lot is listed and q is above its quantity; invalid iff q <= 0 and not exceeding |
| `InventoryPage.WriteOffFormValidIff` | Lab3/pzpi-22-8-petrenko-kyrylo-lab3/src/pages/Inventory.tsx:498-511 | passes iff id and reason are set, q > 0, and q is within the listed lot's quantity when the lot is listed |
| `InventoryPage.ValidWriteOffFormIsAccepted` | Lab3/pzpi-22-8-petrenko-kyrylo-lab3/src/pages/Inventory.tsx:500-507 | with the server's current lots listed, a passing form is written off by the server |
| `InventoryPage.ExceedsOverwritesInvalid` | Lab3/pzpi-22-8-petrenko-kyrylo-lab3/src/pages/Inventory.tsx:505-507 | a quantity both non-positive and above the listed stock is reported as exceeding |
| `InventoryPage.ThresholdRequest` | Lab3/pzpi-22-8-petrenko-kyrylo-lab3/src/pages/Inventory.tsx:345-350 | no request iff threshold <= 0; otherwise the request carries the threshold |
| `Util.NatToStringRoundTrip` | Lab3/pzpi-22-8-petrenko-kyrylo-lab3/src/pages/Inventory.tsx:350 | reading back the digits written for a number gives the number |
| `InventoryPage.SentThresholdIsUsed` | Lab3/pzpi-22-8-petrenko-kyrylo-lab3/src/pages/Inventory.tsx:350 | a sent threshold is a decimal numeral whose value is the threshold, and the server lists exactly the lots below it |
| `IoTDevicesPage.ValidateDeviceForm` | Lab3/pzpi-22-8-petrenko-kyrylo-lab3/src/pages/IoTDevices.tsx:258-280 | pharmacy error iff empty; interval error iff <= 0; max errors iff max <= min, and for humidity also max > 100; humidity min error iff outside 0..100 |
| `IoTDevicesPage.DefaultDeviceFormNeedsPharmacy` | Lab3/pzpi-22-8-petrenko-kyrylo-lab3/src/pages/IoTDevices.tsx:178-186 | the defaults fail only on the empty pharmacy, and pass once a pharmacy is chosen |
| `IoTDevicesPage.ValidRangeIsUsable` | Lab3/pzpi-22-8-petrenko-kyrylo-lab3/src/pages/IoTDevices.tsx:265-277 | an accepted range has strictly ordered bounds, humidity in 0..100, and the compliance check accepts readings at its bounds and refuses readings just outside |
| `PharmaciesPage.ValidatePharmacyForm` | Lab5/pzpi-22-8-petrenko-kyrylo-lab5/web-client/src/pages/Pharmacies.tsx:287-298 | storage-size error iff <= 0; bonus error iff outside 0..100; name, address, working-hours and manager errors each iff that field is empty |
| `PharmaciesPage.PharmacyFormValidIff` | Lab5/pzpi-22-8-petrenko-kyrylo-lab5/web-client/src/pages/Pharmacies.tsx:287-298 | valid iff the four text fields are set, storage size > 0 and 0 <= bonus <= 100 |
| `PharmaciesPage.EmptyPharmacyFormErrors` | Lab5/pzpi-22-8-petrenko-kyrylo-lab5/web-client/src/pages/Pharmacies.tsx:289-295 | the untouched form fails on every field except the bonus |
| `DashboardPage.ValidateMedicineForm` | Lab5/pzpi-22-8-petrenko-kyrylo-lab5/web-client/src/pages/Dashboard.tsx:241-261 | name, category and manufacturer errors iff empty; expiration error iff <= 0 |
| `DashboardPage.RangeErrors` | Lab5/pzpi-22-8-petrenko-kyrylo-lab5/web-client/src/pages/Dashboard.tsx:247-258 | the four required errors never occur; a min slot holds the order error iff min > max, so equal bounds pass |
| `DashboardPage.MedicineFormValidIff` | Lab5/pzpi-22-8-petrenko-kyrylo-lab5/web-client/src/pages/Dashboard.tsx:241-261 | valid iff the three texts are set, expiration > 0 and both ranges have min <= max |
| `DashboardPage.FormatStorageConditions` | Lab5/pzpi-22-8-petrenko-kyrylo-lab5/web-client/src/pages/Dashboard.tsx:373-377 | absent or empty input gives the unknown marker; other text is returned unchanged; ranges give a text starting `Temp: ` |
| `DashboardPage.FormatRangesReadsBack` | Lab5/pzpi-22-8-petrenko-kyrylo-lab5/web-client/src/pages/Dashboard.tsx:376 | the ranges text places the four bounds in the `Temp: a-b°C, Hum: c-d%` template, each a numeral that reads back as its bound |
| `Util.IntToStringRoundTrip` | Lab5/pzpi-22-8-petrenko-kyrylo-lab5/web-client/src/pages/Dashboard.tsx:376 | an integer is written as a numeral, with a minus sign when negative, that reads back as the integer |
| `DashboardPage.FormatExample` | Lab5/pzpi-22-8-petrenko-kyrylo-lab5/web-client/src/pages/Dashboard.tsx:376 | 2..8 degrees and 30..60 percent format as `Temp: 2-8°C, Hum: 30-60%` |

## Left out

- Floating-point rounding: `$round` to two decimals in the statistics and number formatting on the pages are not modelled; averages are exact reals.
- Statistics.GroupRow: the average price and the monthly sales rate are exact quotients, not rounded to two decimals as the server returns them.
- IoTDevicesPage.ValidateDeviceForm: the temperature-minimum error and every `isNaN` branch are not modelled, because form numbers are integers here and cannot be NaN.
- InventoryPage.ThresholdRequest: like every other form number (the inventory, dashboard, pharmacy and device forms all read inputs with `Number(...)`), the threshold is an integer here; fractional inputs such as 2.5, and the text JavaScript writes for them, are not modelled.
- StockSignals.EffectiveThreshold: a non-numeric threshold string, and comparison of numbers with a query string, are not modelled; a threshold is an integer or absent.
- The `$or` query of the restock operation is not modelled separately; the model keeps exactly the lots the `map`/`filter` step keeps, which is the response.
- The order in which the database returns groups, and the order among equal quantities after `$sort` and `Array.sort`, are not fixed by the source; the model uses a stable order in store order.
- The statistics `$sort` on names compares strings lexicographically by character code; collation is not modelled.
- Concurrency: two write-offs of one lot running at once can both pass the quantity check; the model runs operations one at a time.
- HTTP, the database and browser storage are not modelled: requests are the values the pages build, responses the values the controller computes; authentication tokens, redirects and rendering are left out.
- Malformed ids: a cast error on an invalid ObjectId (a 500 answer) is not modelled; ids are plain strings and an unknown id is simply not found.
- URL encoding of query parameters is not modelled; a parameter is a name and the raw field text.
- Date parsing: a date field is its text and an optional parsed time; parsing itself is not modelled.
- `getTransactionHistory`, `getAllMedications` and `addMedicationToInventory` of the controller are not part of this model; the add form's validator is.
- The clock is the parameter `now`, and the user of a write-off is a parameter; neither is read from the environment.

=== FILE: client_forms.dfy ===
/** Pieces shared by the web client's report and history pages: date inputs,
    the pharmacy-and-date-range filter with its validation, and URL query
    parameters. */
module ClientForms {
  import opened Util
  import opened Entities

  /** A date input: the text the user typed (empty when unset) and what
      `new Date(text)` yields, in milliseconds, or None for an invalid date.
      Comparisons with an invalid date are false, as with NaN. */
  datatype DateInput = DateInput(text: string, time: Option<int>)

  /** The filter form of the report and history pages. */
  datatype FilterData = FilterData(pharmacyId: Id, startDate: DateInput, endDate: DateInput)

  /** Which error messages the filter check set. */
  datatype FilterErrors = FilterErrors(pharmacyRequired: bool, dateOrder: bool)

  const NO_FILTER_ERRORS := FilterErrors(false, false)

  /** `new Date(start) > new Date(end)`: false when either date is invalid. */
  predicate Later(start: DateInput, end: DateInput)
  {
    start.time.Some? && end.time.Some? && start.time.value > end.time.value
  }

  /** The pharmacy is required; both dates set and out of order is an error. */
  function ValidateFilter(f: FilterData): (e: FilterErrors)
    ensures e.pharmacyRequired <==> f.pharmacyId == []
    ensures e.dateOrder <==> f.startDate.text != [] && f.endDate.text != [] && Later(f.startDate, f.endDate)
  {
    FilterErrors(
      f.pharmacyId == [],
      f.startDate.text != [] && f.endDate.text != [] && Later(f.startDate, f.endDate))
  }

  /** `Object.keys(errors).length > 0` stops the request. */
  predicate FilterValid(f: FilterData)
  {
    ValidateFilter(f) == NO_FILTER_ERRORS
  }

  /** Only a chosen pharmacy and a non-reversed pair of dates pass; one date
      alone, or two equal dates, pass. */
  lemma FilterValidIff(f: FilterData)
    ensures FilterValid(f) <==>
      f.pharmacyId != [] && !(f.startDate.text != [] && f.endDate.text != [] && Later(f.startDate, f.endDate))
    ensures f.pharmacyId != [] && (f.startDate.text == [] || f.endDate.text == []) ==> FilterValid(f)
    ensures f.pharmacyId != [] && f.startDate.time.Some? && f.startDate.time == f.endDate.time ==> FilterValid(f)
  {
  }

  /** A filter that passes with two valid dates leaves a non-empty window:
      the start date itself lies between the inclusive bounds. */
  lemma ValidFilterWindowNonEmpty(f: FilterData)
    requires FilterValid(f)
    requires f.startDate.text != [] && f.endDate.text != []
    requires f.startDate.time.Some? && f.endDate.time.Some?
    ensures f.startDate.time.value <= f.endDate.time.value
  {
  }

  datatype QueryParam = QueryParam(name: string, value: string)

  /** `if (value) query.append(name, value)`. */
  function AppendIfSet(q: seq<QueryParam>, name: string, value: string): (r: seq<QueryParam>)
    ensures value == [] ==> r == q
    ensures value != [] ==> r == q + [QueryParam(name, value)]
  {
    if value == [] then q else q + [QueryParam(name, value)]
  }

  /** `URLSearchParams.get(name)`: the first value under the name. */
  function Lookup(q: seq<QueryParam>, name: string): (r: Option<string>)
    ensures r.None? <==> forall i :: 0 <= i < |q| ==> q[i].name != name
    ensures r.Some? ==> exists i :: 0 <= i < |q| && q[i] == QueryParam(name, r.value)
  {
    if q == [] then None
    else if q[0].name == name then Some(q[0].value)
    else
      var r := Lookup(q[1..], name);
      if r.Some? then
        var i :| 0 <= i < |q[1..]| && q[1..][i] == QueryParam(name, r.value);
        assert q[i + 1] == QueryParam(name, r.value);
        r
      else r
  }

  /** Appending a parameter only matters for a name not yet present. */
  lemma {:induction false} LookupAppend(q: seq<QueryParam>, p: QueryParam, name: string)
    ensures Lookup(q + [p], name)
         == if Lookup(q, name).Some? then Lookup(q, name)
            else if p.name == name then Some(p.value) else None
  {
    if q != [] {
      assert (q + [p])[1..] == q[1..] + [p];
      LookupAppend(q[1..], p, name);
    }
  }

  lemma LookupAppendIfSet(q: seq<QueryParam>, n: string, v: string, name: string)
    ensures Lookup(AppendIfSet(q, n, v), name)
         == if Lookup(q, name).Some? then Lookup(q, name)
            else if n == name then Param(v) else None
  {
    if v != [] {
      LookupAppend(q, QueryParam(n, v), name);
    }
  }

  /** What the server reads for a parameter: present iff the field was set. */
  function Param(value: string): (r: Option<string>)
    ensures r.None? <==> value == []
  {
    if value == [] then None else Some(value)
  }
}

=== FILE: compliance.dfy ===
/** Storage-condition compliance (`InventoryController.checkStorageConditions`):
    the pharmacy's most recent sample against its device's normal range. */
module Compliance {
  import opened Util
  import opened Entities

  datatype ComplianceResult =
    | NoData                                                     // 404: no sample for the pharmacy
    | Checked(compliant: bool, temperature: int, humidity: int)  // 200, either message
    | Failed                                                     // 500: the device lookup returned null

  /** The most recent sample of the pharmacy (`sort({date: -1}).limit(1)`);
      among samples with the same date the first in store order. */
  function LatestSample(samples: seq<Sample>, pharmacyId: Id): (r: Option<Sample>)
    ensures r.None? <==> forall s :: s in samples ==> s.pharmacy != pharmacyId
    ensures r.Some? ==> r.value in samples && r.value.pharmacy == pharmacyId
    ensures r.Some? ==> forall s :: s in samples && s.pharmacy == pharmacyId ==> s.date <= r.value.date
  {
    if samples == [] then None
    else
      var rest := LatestSample(samples[1..], pharmacyId);
      if samples[0].pharmacy != pharmacyId then rest
      else if rest.Some? && rest.value.date > samples[0].date then rest
      else Some(samples[0])
  }

  /** `IoTDevice.findOne({pharmacy})`: the first device of the pharmacy. */
  function DeviceOf(devices: seq<Device>, pharmacyId: Id): (r: Option<Device>)
    ensures r.None? <==> forall d :: d in devices ==> d.pharmacy != pharmacyId
    ensures r.Some? ==> r.value in devices && r.value.pharmacy == pharmacyId
  {
    if devices == [] then None
    else if devices[0].pharmacy == pharmacyId then Some(devices[0])
    else DeviceOf(devices[1..], pharmacyId)
  }

  /** The sample lies in the band, bounds included. */
  predicate WithinRange(temperature: int, humidity: int, range: NormalRange)
  {
    range.temperature.min <= temperature <= range.temperature.max
    && range.humidity.min <= humidity <= range.humidity.max
  }

  function CheckStorageConditions(samples: seq<Sample>, devices: seq<Device>, pharmacyId: Id): (r: ComplianceResult)
    ensures r.NoData? <==> forall s :: s in samples ==> s.pharmacy != pharmacyId
    ensures r.Failed? <==> LatestSample(samples, pharmacyId).Some? && DeviceOf(devices, pharmacyId).None?
    ensures r.Checked? ==>
      var s := LatestSample(samples, pharmacyId).value;
      var range := DeviceOf(devices, pharmacyId).value.normalRange;
      && r.temperature == s.temperature && r.humidity == s.humidity
      && (r.compliant <==> WithinRange(s.temperature, s.humidity, range))
  {
    match LatestSample(samples, pharmacyId)
    case None => NoData
    case Some(s) =>
      match DeviceOf(devices, pharmacyId)
      case None => Failed
      case Some(d) =>
        var range := d.normalRange;
        var outOfRange :=
          s.temperature < range.temperature.min || s.temperature > range.temperature.max
          || s.humidity < range.humidity.min || s.humidity > range.humidity.max;
        Checked(!outOfRange, s.temperature, s.humidity)
  }

  /** Adding an older sample does not change the verdict: only the most
      recent reading counts. */
  lemma {:induction false} OlderSampleIgnored(samples: seq<Sample>, devices: seq<Device>, pharmacyId: Id, earlier: Sample)
    requires LatestSample(samples, pharmacyId).Some?
    requires earlier.date < LatestSample(samples, pharmacyId).value.date
    ensures CheckStorageConditions([earlier] + samples, devices, pharmacyId)
         == CheckStorageConditions(samples, devices, pharmacyId)
  {
    assert ([earlier] + samples)[1..] == samples;
  }

  /** Example: 30 degrees against a 15..25 range is reported as out of
      range, with the reading itself. */
  lemma ComplianceExample()
    ensures CheckStorageConditions(
              [Sample("p", 30, 50, 1000)],
              [Device("p", NormalRange(Band(15, 25), Band(30, 70)))], "p")
         == Checked(false, 30, 50)
  {
  }
}

=== FILE: dashboard_page.dfy ===
/** The medication catalog page of the web client: the medication form
    check and the display text of a medication's storage conditions. */
module DashboardPage {
  import opened Util
  import opened Entities

  datatype MedicineForm = MedicineForm(
    name: string,
    expirationTime: int,
    storageConditions: NormalRange,
    category: string,
    manufacturer: string,
    isPrescriptionOnly: bool)

  /** The two messages the minimum slots can hold; the order check runs
      later and overwrites. */
  datatype MinError = MinRequired | OrderError

  datatype MedicineErrors = MedicineErrors(
    name: bool,
    expirationTime: bool,
    temperatureMin: Option<MinError>,
    temperatureMax: bool,
    humidityMin: Option<MinError>,
    humidityMax: bool,
    category: bool,
    manufacturer: bool)

  const NO_MEDICINE_ERRORS := MedicineErrors(false, false, None, false, None, false, false, false)

  /** The "required" test of a bound: `x === 0 && x !== 0`, as written. */
  predicate BoundMissing(x: int)
  {
    x == 0 && x != 0
  }

  /** `validateForm`, check by check in source order. */
  function ValidateMedicineForm(f: MedicineForm): (e: MedicineErrors)
    ensures e.name <==> f.name == []
    ensures e.category <==> f.category == []
    ensures e.manufacturer <==> f.manufacturer == []
    ensures e.expirationTime <==> f.expirationTime <= 0
  {
    var t := f.storageConditions.temperature;
    var h := f.storageConditions.humidity;
    var tMin := if BoundMissing(t.min) then Some(MinRequired) else None;
    var hMin := if BoundMissing(h.min) then Some(MinRequired) else None;
    var tMin' := if t.min > t.max then Some(OrderError) else tMin;
    var hMin' := if h.min > h.max then Some(OrderError) else hMin;
    MedicineErrors(
      f.name == [], f.expirationTime <= 0,
      tMin', BoundMissing(t.max), hMin', BoundMissing(h.max),
      f.category == [], f.manufacturer == [])
  }

  predicate MedicineFormValid(f: MedicineForm)
  {
    ValidateMedicineForm(f) == NO_MEDICINE_ERRORS
  }

  /** The four "required" messages can never appear; the minimum slots
      hold the order message exactly when the minimum exceeds the maximum,
      so equal bounds pass. */
  lemma RangeErrors(f: MedicineForm)
    ensures var e := ValidateMedicineForm(f);
            var r := f.storageConditions;
            && !e.temperatureMax && !e.humidityMax
            && e.temperatureMin != Some(MinRequired) && e.humidityMin != Some(MinRequired)
            && (e.temperatureMin == Some(OrderError) <==> r.temperature.min > r.temperature.max)
            && (e.humidityMin == Some(OrderError) <==> r.humidity.min > r.humidity.max)
  {
  }

  lemma MedicineFormValidIff(f: MedicineForm)
    ensures MedicineFormValid(f) <==>
      && f.name != [] && f.category != [] && f.manufacturer != []
      && f.expirationTime > 0
      && f.storageConditions.temperature.min <= f.storageConditions.temperature.max
      && f.storageConditions.humidity.min <= f.storageConditions.humidity.max
  {
  }

  /** What a catalog entry holds under `storageConditions`: nothing, a
      free-text description, or a pair of ranges. */
  datatype StorageConditions = NotGiven | Text(text: string) | Ranges(range: NormalRange)

  const UNKNOWN_CONDITIONS: string := "Невідомо"

  /** `formatStorageConditions`. An empty text is falsy and shows as unknown. */
  function FormatStorageConditions(c: StorageConditions): (s: string)
    ensures c.NotGiven? ==> s == UNKNOWN_CONDITIONS
    ensures c.Text? ==> s == if c.text == [] then UNKNOWN_CONDITIONS else c.text
    ensures c.Ranges? ==> |s| > 6 && s[..6] == "Temp: "
  {
    match c
    case NotGiven => UNKNOWN_CONDITIONS
    case Text(t) => if t == [] then UNKNOWN_CONDITIONS else t
    case Ranges(r) =>
      "Temp: " + IntToString(r.temperature.min) + "-" + IntToString(r.temperature.max)
      + "°C, Hum: " + IntToString(r.humidity.min) + "-" + IntToString(r.humidity.max) + "%"
  }

  /** The ranges text lays out the four bounds in the template's places,
      each as a numeral that reads back as its bound. */
  lemma FormatRangesReadsBack(r: NormalRange)
    ensures var tMin := IntToString(r.temperature.min);
            var tMax := IntToString(r.temperature.max);
            var hMin := IntToString(r.humidity.min);
            var hMax := IntToString(r.humidity.max);
            && FormatStorageConditions(Ranges(r))
               == "Temp: " + tMin + "-" + tMax + "°C, Hum: " + hMin + "-" + hMax + "%"
            && Numeral(tMin) && IntValue(tMin) == r.temperature.min
            && Numeral(tMax) && IntValue(tMax) == r.temperature.max
            && Numeral(hMin) && IntValue(hMin) == r.humidity.min
            && Numeral(hMax) && IntValue(hMax) == r.humidity.max
  {
    IntToStringRoundTrip(r.temperature.min);
    IntToStringRoundTrip(r.temperature.max);
    IntToStringRoundTrip(r.humidity.min);
    IntToStringRoundTrip(r.humidity.max);
  }

  /** Example: 2..8 degrees and 30..60 percent. */
  lemma FormatExample()
    ensures FormatStorageConditions(Ranges(NormalRange(Band(2, 8), Band(30, 60))))
         == "Temp: 2-8°C, Hum: 30-60%"
  {
  }
}

=== FILE: entities.dfy ===
/** The documents of the pharmacy store that the inventory controller reads
    and writes, as values. References between documents are ids; a reference
    whose target was deleted is simply not found by the lookups below. */
module Entities {
  import opened Util

  /** A document id. The empty string stands for an id the caller left out. */
  type Id = string

  /** Milliseconds in one day, the factor that turns a medication's
      expiration period (days) into a duration. */
  const MS_PER_DAY: int := 86400000

  /** A catalog medication (collection `medications`). */
  datatype Medication = Medication(
    id: Id,
    name: string,
    category: string,
    manufacturer: string,
    expirationDays: int)

  datatype Pharmacy = Pharmacy(id: Id, name: string)

  /** A lot (collection `medicationinpharmacies`): one batch of one catalog
      medication stocked at one pharmacy. */
  datatype Lot = Lot(
    id: Id,
    pharmacy: Id,
    medication: Id,
    price: int,
    manufactureDate: int,
    quantity: int,
    batchCode: string)

  /** A completed sale. `lot` is the document's `medication` field, which
      references a lot rather than a catalog medication. */
  datatype Transaction = Transaction(lot: Id, quantity: int, price: int, date: int)

  /** A write-off ledger record. Unlike a transaction it references the
      catalog medication and the pharmacy of the lot it came from. */
  datatype WriteOff = WriteOff(
    user: Id,
    medication: Id,
    pharmacy: Id,
    quantity: int,
    reason: string,
    date: int)

  /** One temperature/humidity reading of a pharmacy's storage. */
  datatype Sample = Sample(pharmacy: Id, temperature: int, humidity: int, date: int)

  datatype Band = Band(min: int, max: int)
  datatype NormalRange = NormalRange(temperature: Band, humidity: Band)
  datatype Device = Device(pharmacy: Id, normalRange: NormalRange)

  /** `Medication.findById`: the first catalog entry with the id. */
  function FindMedication(meds: seq<Medication>, id: Id): (r: Option<Medication>)
    ensures r.Some? ==> r.value in meds && r.value.id == id
    ensures r.None? <==> forall m :: m in meds ==> m.id != id
  {
    if meds == [] then None
    else if meds[0].id == id then Some(meds[0])
    else FindMedication(meds[1..], id)
  }

  function FindPharmacy(pharmacies: seq<Pharmacy>, id: Id): (r: Option<Pharmacy>)
    ensures r.Some? ==> r.value in pharmacies && r.value.id == id
    ensures r.None? <==> forall p :: p in pharmacies ==> p.id != id
  {
    if pharmacies == [] then None
    else if pharmacies[0].id == id then Some(pharmacies[0])
    else FindPharmacy(pharmacies[1..], id)
  }

  /** `MedicationInPharmacy.findById`: the position of the first lot with the id. */
  function FindLot(lots: seq<Lot>, id: Id): (r: Option<nat>)
    ensures r.Some? ==> r.value < |lots| && lots[r.value].id == id
    ensures r.Some? ==> forall j :: 0 <= j < r.value ==> lots[j].id != id
    ensures r.None? <==> forall j :: 0 <= j < |lots| ==> lots[j].id != id
  {
    if lots == [] then None
    else if lots[0].id == id then Some(0)
    else match FindLot(lots[1..], id)
      case None => None
      case Some(j) => Some(j + 1)
  }

  /** Sum of the quantities of a sequence of lots. */
  function LotQuantity(lots: seq<Lot>): int
  {
    if lots == [] then 0 else lots[0].quantity + LotQuantity(lots[1..])
  }

  /** Sum of the quantities recorded in a write-off ledger. */
  function WrittenOffQuantity(ledger: seq<WriteOff>): int
  {
    if ledger == [] then 0 else ledger[0].quantity + WrittenOffQuantity(ledger[1..])
  }
}

=== FILE: grouping.dfy ===
/** The aggregation primitives behind the reports: grouping by a key with
    sums (MongoDB `$group` with `$sum`, or a JavaScript `reduce` into an
    accumulator), sorting by quantity descending and keeping the top five. */
module Grouping {

  /** One item to aggregate, or one group: a key and two running sums
      (a quantity and a money amount; reports that sum only quantities leave
      the amount at zero). */
  datatype Entry<K> = Entry(key: K, quantity: int, amount: int)

  /** Number of entries the reports keep (`$slice: [..., 5]`, `.slice(0, 5)`). */
  const TOP_N: nat := 5

  function SumQuantity<K>(s: seq<Entry<K>>): int
  {
    if s == [] then 0 else s[0].quantity + SumQuantity(s[1..])
  }

  function SumAmount<K>(s: seq<Entry<K>>): int
  {
    if s == [] then 0 else s[0].amount + SumAmount(s[1..])
  }

  /** Sum of the quantities of the items carrying key k. */
  function QuantityOfKey<K(==)>(s: seq<Entry<K>>, k: K): int
  {
    if s == [] then 0
    else (if s[0].key == k then s[0].quantity else 0) + QuantityOfKey(s[1..], k)
  }

  function AmountOfKey<K(==)>(s: seq<Entry<K>>, k: K): int
  {
    if s == [] then 0
    else (if s[0].key == k then s[0].amount else 0) + AmountOfKey(s[1..], k)
  }

  ghost predicate KeysDistinct<K>(s: seq<Entry<K>>)
  {
    forall i, j :: 0 <= i < j < |s| ==> s[i].key != s[j].key
  }

  /** Position of the group with key k (the accumulator's `find`), or -1. */
  function IndexOfKey<K(==)>(acc: seq<Entry<K>>, k: K): (i: int)
    ensures -1 <= i < |acc|
    ensures i >= 0 ==> acc[i].key == k && forall j :: 0 <= j < i ==> acc[j].key != k
    ensures i < 0 ==> forall j :: 0 <= j < |acc| ==> acc[j].key != k
  {
    if acc == [] then -1
    else if acc[0].key == k then 0
    else
      var j := IndexOfKey(acc[1..], k);
      if j < 0 then -1 else j + 1
  }

  /** Fold one item into the groups: add it to the group with its key, or
      append a new group when there is none yet. */
  function AddEntry<K(==)>(acc: seq<Entry<K>>, e: Entry<K>): seq<Entry<K>>
  {
    var i := IndexOfKey(acc, e.key);
    if i < 0 then acc + [e]
    else acc[i := Entry(e.key, acc[i].quantity + e.quantity, acc[i].amount + e.amount)]
  }

  /** Group the items by key, summing quantity and amount; groups appear in
      the order their keys are first met. */
  function Tally<K(==)>(items: seq<Entry<K>>): seq<Entry<K>>
  {
    if items == [] then [] else AddEntry(Tally(items[..|items| - 1]), items[|items| - 1])
  }

  /** One step of the source's in-place `reduce`: look the key up in the
      accumulator and add to that group, or push a new group. */
  method Accumulate<K(==)>(acc: seq<Entry<K>>, e: Entry<K>) returns (r: seq<Entry<K>>)
    ensures r == AddEntry(acc, e)
  {
    var i := 0;
    while i < |acc| && acc[i].key != e.key
      invariant 0 <= i <= |acc|
      invariant forall j :: 0 <= j < i ==> acc[j].key != e.key
    {
      i := i + 1;
    }
    if i == |acc| {
      r := acc + [e];
    } else {
      r := acc[i := Entry(e.key, acc[i].quantity + e.quantity, acc[i].amount + e.amount)];
    }
  }

  /** Growing a prefix by one item folds that item into the groups. */
  lemma TallyPrefix<K>(items: seq<Entry<K>>, i: nat)
    requires i < |items|
    ensures Tally(items[..i + 1]) == AddEntry(Tally(items[..i]), items[i])
  {
    assert items[..i + 1][..i] == items[..i];
  }

  lemma SumPrefix<K>(items: seq<Entry<K>>, i: nat)
    requires i < |items|
    ensures SumQuantity(items[..i + 1]) == SumQuantity(items[..i]) + items[i].quantity
  {
    assert items[..i + 1] == items[..i] + [items[i]];
    SumAppend(items[..i], [items[i]]);
  }

  // ----- sums over sequences -----

  lemma {:induction false} SumAppend<K>(a: seq<Entry<K>>, b: seq<Entry<K>>)
    ensures SumQuantity(a + b) == SumQuantity(a) + SumQuantity(b)
    ensures SumAmount(a + b) == SumAmount(a) + SumAmount(b)
  {
    if a == [] {
      assert a + b == b;
    } else {
      assert (a + b)[1..] == a[1..] + b;
      SumAppend(a[1..], b);
    }
  }

  lemma {:induction false} KeyTotalsAppend<K>(a: seq<Entry<K>>, b: seq<Entry<K>>, k: K)
    ensures QuantityOfKey(a + b, k) == QuantityOfKey(a, k) + QuantityOfKey(b, k)
    ensures AmountOfKey(a + b, k) == AmountOfKey(a, k) + AmountOfKey(b, k)
  {
    if a == [] {
      assert a + b == b;
    } else {
      assert (a + b)[1..] == a[1..] + b;
      KeyTotalsAppend(a[1..], b, k);
    }
  }

  /** Replacing one entry changes the sums by the difference. */
  lemma {:induction false} SumUpdate<K>(s: seq<Entry<K>>, i: nat, x: Entry<K>)
    requires i < |s|
    ensures SumQuantity(s[i := x]) == SumQuantity(s) - s[i].quantity + x.quantity
    ensures SumAmount(s[i := x]) == SumAmount(s) - s[i].amount + x.amount
  {
    if i > 0 {
      assert s[i := x][1..] == s[1..][i - 1 := x];
      SumUpdate(s[1..], i - 1, x);
    }
  }

  /** Per-key sums of a sequence whose keys are distinct: the entry itself. */
  lemma {:induction false} KeyTotalsOfDistinct<K>(s: seq<Entry<K>>, i: nat)
    requires i < |s| && KeysDistinct(s)
    ensures QuantityOfKey(s, s[i].key) == s[i].quantity
    ensures AmountOfKey(s, s[i].key) == s[i].amount
  {
    if i == 0 {
      KeyAbsent(s[1..], s[0].key);
    } else {
      KeyTotalsOfDistinct(s[1..], i - 1);
    }
  }

  lemma {:induction false} KeyAbsent<K>(s: seq<Entry<K>>, k: K)
    requires forall j :: 0 <= j < |s| ==> s[j].key != k
    ensures QuantityOfKey(s, k) == 0 && AmountOfKey(s, k) == 0
  {
    if s != [] {
      KeyAbsent(s[1..], k);
    }
  }

  // ----- what grouping preserves -----

  lemma AddEntryKeysDistinct<K>(acc: seq<Entry<K>>, e: Entry<K>)
    requires KeysDistinct(acc)
    ensures KeysDistinct(AddEntry(acc, e))
  {
  }

  /** The groups have pairwise distinct keys. */
  lemma {:induction false} TallyKeysDistinct<K>(items: seq<Entry<K>>)
    ensures KeysDistinct(Tally(items))
  {
    if items != [] {
      TallyKeysDistinct(items[..|items| - 1]);
      AddEntryKeysDistinct(Tally(items[..|items| - 1]), items[|items| - 1]);
    }
  }

  lemma AddEntrySums<K>(acc: seq<Entry<K>>, e: Entry<K>)
    ensures SumQuantity(AddEntry(acc, e)) == SumQuantity(acc) + e.quantity
    ensures SumAmount(AddEntry(acc, e)) == SumAmount(acc) + e.amount
  {
    var i := IndexOfKey(acc, e.key);
    if i < 0 {
      SumAppend(acc, [e]);
    } else {
      SumUpdate(acc, i, Entry(e.key, acc[i].quantity + e.quantity, acc[i].amount + e.amount));
    }
  }

  /** Grouping loses nothing: the groups sum to what the items sum to. */
  lemma {:induction false} TallyPreservesSums<K>(items: seq<Entry<K>>)
    ensures SumQuantity(Tally(items)) == SumQuantity(items)
    ensures SumAmount(Tally(items)) == SumAmount(items)
  {
    if items != [] {
      var n := |items| - 1;
      TallyPreservesSums(items[..n]);
      AddEntrySums(Tally(items[..n]), items[n]);
      assert items == items[..n] + [items[n]];
      SumAppend(items[..n], [items[n]]);
    }
  }

  /** A key has a group exactly when some item carries it. */
  lemma {:induction false} TallyKeys<K>(items: seq<Entry<K>>, k: K)
    ensures (exists i :: 0 <= i < |Tally(items)| && Tally(items)[i].key == k)
        <==> (exists j :: 0 <= j < |items| && items[j].key == k)
  {
    if items != [] {
      var n := |items| - 1;
      TallyKeys(items[..n], k);
      var acc := Tally(items[..n]);
      var t := Tally(items);
      assert t == AddEntry(acc, items[n]);
      if items[n].key == k {
        var i := IndexOfKey(acc, k);
        var w := if i < 0 then |acc| else i;
        assert t[w].key == k;
        assert items[n].key == k;
      } else {
        assert forall i :: 0 <= i < |acc| ==> AddEntry(acc, items[n])[i].key == acc[i].key;
        if exists j :: 0 <= j < |items| && items[j].key == k {
          var j :| 0 <= j < |items| && items[j].key == k;
          assert items[..n][j].key == k;
        }
      }
    }
  }

  /** The group with key k holds the sums of exactly the items with key k. */
  lemma {:induction false} TallyGroupTotals<K>(items: seq<Entry<K>>, i: nat)
    requires i < |Tally(items)|
    ensures Tally(items)[i].quantity == QuantityOfKey(items, Tally(items)[i].key)
    ensures Tally(items)[i].amount == AmountOfKey(items, Tally(items)[i].key)
  {
    var t := Tally(items);
    TallyKeysDistinct(items);
    KeyTotalsOfDistinct(t, i);
    TallyKeyTotals(items, t[i].key);
  }

  /** Per-key sums survive grouping. */
  lemma {:induction false} TallyKeyTotals<K>(items: seq<Entry<K>>, k: K)
    ensures QuantityOfKey(Tally(items), k) == QuantityOfKey(items, k)
    ensures AmountOfKey(Tally(items), k) == AmountOfKey(items, k)
  {
    if items != [] {
      var n := |items| - 1;
      var acc := Tally(items[..n]);
      var e := items[n];
      TallyKeyTotals(items[..n], k);
      assert items == items[..n] + [e];
      KeyTotalsAppend(items[..n], [e], k);
      var i := IndexOfKey(acc, e.key);
      if i < 0 {
        KeyTotalsAppend(acc, [e], k);
      } else {
        AddEntryKeyTotals(acc, i, e, k);
      }
    }
  }

  lemma {:induction false} AddEntryKeyTotals<K>(acc: seq<Entry<K>>, i: nat, e: Entry<K>, k: K)
    requires i < |acc| && acc[i].key == e.key
    ensures QuantityOfKey(acc[i := Entry(e.key, acc[i].quantity + e.quantity, acc[i].amount + e.amount)], k)
         == QuantityOfKey(acc, k) + (if e.key == k then e.quantity else 0)
    ensures AmountOfKey(acc[i := Entry(e.key, acc[i].quantity + e.quantity, acc[i].amount + e.amount)], k)
         == AmountOfKey(acc, k) + (if e.key == k then e.amount else 0)
  {
    var x := Entry(e.key, acc[i].quantity + e.quantity, acc[i].amount + e.amount);
    if i > 0 {
      assert acc[i := x][1..] == acc[1..][i - 1 := x];
      AddEntryKeyTotals(acc[1..], i - 1, e, k);
    }
  }

  // ----- sorting by quantity, descending -----

  ghost predicate SortedDesc<K>(s: seq<Entry<K>>)
  {
    forall i, j :: 0 <= i < j < |s| ==> s[i].quantity >= s[j].quantity
  }

  /** Insert x in front of the first entry that is not larger, so entries of
      equal quantity keep their order (JavaScript's sort is stable). */
  function InsertDesc<K>(x: Entry<K>, s: seq<Entry<K>>): (r: seq<Entry<K>>)
    requires SortedDesc(s)
    ensures SortedDesc(r)
    ensures forall y :: y in r ==> y == x || y in s
  {
    if s == [] || s[0].quantity <= x.quantity then [x] + s
    else
      var t := InsertDesc(x, s[1..]);
      assert forall y :: y in t ==> y.quantity <= s[0].quantity;
      [s[0]] + t
  }

  lemma {:induction false} InsertDescContents<K>(x: Entry<K>, s: seq<Entry<K>>)
    requires SortedDesc(s)
    ensures multiset(InsertDesc(x, s)) == multiset(s) + multiset{x}
    ensures SumQuantity(InsertDesc(x, s)) == x.quantity + SumQuantity(s)
    ensures SumAmount(InsertDesc(x, s)) == x.amount + SumAmount(s)
  {
    if s == [] || s[0].quantity <= x.quantity {
    } else {
      InsertDescContents(x, s[1..]);
      assert s == [s[0]] + s[1..];
    }
  }

  /** Order the groups by quantity, largest first (`$sort: {totalQuantity: -1}`,
      `.sort((a, b) => b.quantity - a.quantity)`). */
  function SortByQuantityDesc<K>(s: seq<Entry<K>>): (r: seq<Entry<K>>)
    ensures SortedDesc(r)
  {
    if s == [] then [] else InsertDesc(s[0], SortByQuantityDesc(s[1..]))
  }

  /** Sorting only reorders: same entries, same sums. */
  lemma {:induction false} SortByQuantityDescContents<K>(s: seq<Entry<K>>)
    ensures multiset(SortByQuantityDesc(s)) == multiset(s)
    ensures |SortByQuantityDesc(s)| == |s|
    ensures SumQuantity(SortByQuantityDesc(s)) == SumQuantity(s)
    ensures SumAmount(SortByQuantityDesc(s)) == SumAmount(s)
  {
    if s != [] {
      SortByQuantityDescContents(s[1..]);
      InsertDescContents(s[0], SortByQuantityDesc(s[1..]));
      assert s == [s[0]] + s[1..];
      assert |SortByQuantityDesc(s)| == |multiset(SortByQuantityDesc(s))|;
    }
  }

  /** After grouping and sorting, every item's key has exactly one group, and
      that group carries the item key's totals. */
  lemma GroupOfItem<K>(items: seq<Entry<K>>, j: nat)
    requires j < |items|
    ensures var g := SortByQuantityDesc(Tally(items));
            exists i :: 0 <= i < |g| && g[i].key == items[j].key
              && g[i].quantity == QuantityOfKey(items, items[j].key)
              && g[i].amount == AmountOfKey(items, items[j].key)
  {
    var key := items[j].key;
    var t := Tally(items);
    TallyKeys(items, key);
    var i :| 0 <= i < |t| && t[i].key == key;
    TallyGroupTotals(items, i);
    SortByQuantityDescContents(t);
    var g := SortByQuantityDesc(t);
    assert t[i] in multiset(g);
    var i' :| 0 <= i' < |g| && g[i'] == t[i];
  }

  /** The leading TOP_N entries. */
  function Top<K>(s: seq<Entry<K>>): (r: seq<Entry<K>>)
    ensures |r| <= TOP_N && |r| == if |s| < TOP_N then |s| else TOP_N
    ensures r == s[..|r|]
  {
    if |s| <= TOP_N then s else s[..TOP_N]
  }
}

=== FILE: inventory_page.dfy ===
/** The inventory page of the web client: the add, update and write-off
    form checks and the threshold guard in front of the low-stock and
    restock requests. */
module InventoryPage {
  import opened Util
  import opened Entities
  import opened ClientForms
  import LotStore
  import StockSignals

  // ----- adding a lot -----

  datatype AddForm = AddForm(
    pharmacyId: Id,
    medicationId: Id,
    price: int,
    manufactureDate: DateInput,
    quantity: int,
    batchCode: string)

  datatype AddErrors = AddErrors(
    pharmacyId: bool, medicationId: bool, price: bool,
    manufactureDate: bool, quantity: bool, batchCode: bool)

  const NO_ADD_ERRORS := AddErrors(false, false, false, false, false, false)

  /** `validateAddForm`; `now` is the clock reading. */
  function ValidateAddForm(f: AddForm, now: int): (e: AddErrors)
    ensures e.price <==> f.price < 0
    ensures e.quantity <==> f.quantity < 0
    ensures e.manufactureDate <==>
      f.manufactureDate.text == [] || (f.manufactureDate.time.Some? && f.manufactureDate.time.value > now)
  {
    AddErrors(
      f.pharmacyId == [],
      f.medicationId == [],
      f.price < 0,
      f.manufactureDate.text == [] || (f.manufactureDate.time.Some? && f.manufactureDate.time.value > now),
      f.quantity < 0,
      f.batchCode == [])
  }

  predicate AddFormValid(f: AddForm, now: int)
  {
    ValidateAddForm(f, now) == NO_ADD_ERRORS
  }

  /** The add form passes exactly when both ids and the batch code are set,
      price and quantity are not negative, and the date is set and not in
      the future; zero price and zero quantity pass. */
  lemma AddFormValidIff(f: AddForm, now: int)
    ensures AddFormValid(f, now) <==>
      && f.pharmacyId != [] && f.medicationId != [] && f.batchCode != []
      && f.price >= 0 && f.quantity >= 0
      && f.manufactureDate.text != []
      && (f.manufactureDate.time.None? || f.manufactureDate.time.value <= now)
  {
  }

  /** A date text that does not parse is not caught: the comparison with
      an invalid date is false. */
  lemma AddFormAcceptsUnparsableDate(now: int)
    ensures AddFormValid(AddForm("P1", "M1", 0, DateInput("not a date", None), 0, "B1"), now)
  {
  }

  // ----- overwriting a quantity -----

  datatype UpdateErrors = UpdateErrors(newQuantity: bool)

  function ValidateUpdateForm(newQuantity: int): (e: UpdateErrors)
    ensures e.newQuantity <==> newQuantity < 0
  {
    UpdateErrors(newQuantity < 0)
  }

  /** An overwrite the form lets through keeps every lot non-negative. */
  lemma ValidUpdateKeepsStockNonNegative(s: LotStore.Store, lotId: Id, newQuantity: int)
    requires ValidateUpdateForm(newQuantity) == UpdateErrors(false)
    requires forall j :: 0 <= j < |s.lots| ==> s.lots[j].quantity >= 0
    ensures var s' := LotStore.UpdateStep(s, lotId, newQuantity).1;
            forall j :: 0 <= j < |s'.lots| ==> s'.lots[j].quantity >= 0
  {
  }

  // ----- writing off -----

  datatype WriteOffForm = WriteOffForm(lotId: Id, quantity: int, reason: string)

  /** The quantity slot holds one message; the later check overwrites. */
  datatype QuantityError = QuantityInvalid | QuantityExceeds

  datatype WriteOffErrors = WriteOffErrors(lotId: bool, quantity: Option<QuantityError>, reason: bool)

  const NO_WRITE_OFF_ERRORS := WriteOffErrors(false, None, false)

  /** `validateWriteOffForm` against the lots the page has listed. */
  function ValidateWriteOffForm(listed: seq<Lot>, f: WriteOffForm): (e: WriteOffErrors)
    ensures e.lotId <==> f.lotId == []
    ensures e.reason <==> f.reason == []
    ensures e.quantity == Some(QuantityExceeds) <==>
      FindLot(listed, f.lotId).Some? && f.quantity > listed[FindLot(listed, f.lotId).value].quantity
    ensures e.quantity == Some(QuantityInvalid) <==>
      f.quantity <= 0 && !(FindLot(listed, f.lotId).Some? && f.quantity > listed[FindLot(listed, f.lotId).value].quantity)
  {
    var current := FindLot(listed, f.lotId);
    var invalid := if f.quantity <= 0 then Some(QuantityInvalid) else None;
    var quantityError :=
      if current.Some? && f.quantity > listed[current.value].quantity then Some(QuantityExceeds) else invalid;
    WriteOffErrors(f.lotId == [], quantityError, f.reason == [])
  }

  predicate WriteOffFormValid(listed: seq<Lot>, f: WriteOffForm)
  {
    ValidateWriteOffForm(listed, f) == NO_WRITE_OFF_ERRORS
  }

  /** The form passes exactly when the lot and reason are set, the quantity
      is positive and, if the lot is listed, within its listed quantity. */
  lemma WriteOffFormValidIff(listed: seq<Lot>, f: WriteOffForm)
    ensures WriteOffFormValid(listed, f) <==>
      && f.lotId != [] && f.reason != [] && f.quantity > 0
      && (FindLot(listed, f.lotId).Some? ==> f.quantity <= listed[FindLot(listed, f.lotId).value].quantity)
  {
  }

  /** When the listed lots are the server's current lots, a write-off the
      form lets through is carried out by the server. */
  lemma ValidWriteOffFormIsAccepted(s: LotStore.Store, f: WriteOffForm, user: Id, now: int)
    requires WriteOffFormValid(s.lots, f)
    requires FindLot(s.lots, f.lotId).Some?
    ensures LotStore.WriteOffStep(s, LotStore.WriteOffRequest(f.lotId, Some(f.quantity), f.reason), user, now).0
         == LotStore.WrittenOff
  {
    WriteOffFormValidIff(s.lots, f);
  }

  /** A quantity both non-positive and above the listed stock is reported
      as exceeding: the later message wins. */
  lemma ExceedsOverwritesInvalid()
    ensures ValidateWriteOffForm([Lot("L1", "P1", "M1", 100, 0, -5, "B1")], WriteOffForm("L1", -1, "lost")).quantity
         == Some(QuantityExceeds)
  {
  }

  // ----- the threshold guard -----

  /** `fetchLowInventory`, `fetchRestockRecommendations` and
      `handleThresholdChange`: a threshold not above 0 sets the error and
      sends nothing; otherwise the request carries the threshold. */
  function ThresholdRequest(threshold: int): (r: Option<QueryParam>)
    ensures r.None? <==> threshold <= 0
    ensures r.Some? ==> r.value == QueryParam("threshold", IntToString(threshold))
  {
    if threshold <= 0 then None else Some(QueryParam("threshold", IntToString(threshold)))
  }

  /** The threshold the page sends is a decimal numeral whose value is the
      threshold, so the server reads that positive number back and lists
      exactly the lots below it. */
  lemma SentThresholdIsUsed(lots: seq<Lot>, threshold: int)
    requires ThresholdRequest(threshold).Some?
    ensures var text := ThresholdRequest(threshold).value.value;
            && (forall i :: 0 <= i < |text| ==> '0' <= text[i] <= '9')
            && DigitsValue(text) == threshold
    ensures StockSignals.EffectiveThreshold(Some(threshold)) == threshold && threshold > 0
    ensures forall l :: l in StockSignals.LowInventory(lots, Some(threshold)) <==> l in lots && l.quantity < threshold
  {
    NatToStringRoundTrip(threshold);
  }
}

=== FILE: iot_devices_page.dfy ===
/** The IoT-device page of the web client: the device form check and the
    form's initial values. */
module IoTDevicesPage {
  import opened Util
  import opened Entities
  import Compliance

  datatype DeviceStatus = Active | Inactive

  datatype DeviceForm = DeviceForm(
    pharmacyId: Id,
    status: DeviceStatus,
    measurementInterval: int,
    normalRange: NormalRange)

  /** The error slots the check can set for whole-number input (the
      `temperatureMin` slot is set only for NaN, which is not modelled). */
  datatype DeviceErrors = DeviceErrors(
    pharmacyId: bool,
    measurementInterval: bool,
    temperatureMax: bool,
    humidityMin: bool,
    humidityMax: bool)

  const NO_DEVICE_ERRORS := DeviceErrors(false, false, false, false, false)

  /** The form's initial values: 300 s, 15 to 25 degrees, 30 to 70 percent. */
  const DEFAULT_DEVICE_FORM := DeviceForm("", Active, 300, NormalRange(Band(15, 25), Band(30, 70)))

  /** `validateForm`. */
  function ValidateDeviceForm(f: DeviceForm): (e: DeviceErrors)
    ensures e.pharmacyId <==> f.pharmacyId == []
    ensures e.measurementInterval <==> f.measurementInterval <= 0
    ensures e.temperatureMax <==> f.normalRange.temperature.max <= f.normalRange.temperature.min
    ensures e.humidityMin <==> !(0 <= f.normalRange.humidity.min <= 100)
    ensures e.humidityMax <==>
      f.normalRange.humidity.max <= f.normalRange.humidity.min || f.normalRange.humidity.max > 100
  {
    var r := f.normalRange;
    DeviceErrors(
      f.pharmacyId == [],
      f.measurementInterval <= 0,
      r.temperature.max <= r.temperature.min,
      r.humidity.min < 0 || r.humidity.min > 100,
      r.humidity.max <= r.humidity.min || r.humidity.max > 100)
  }

  predicate DeviceFormValid(f: DeviceForm)
  {
    ValidateDeviceForm(f) == NO_DEVICE_ERRORS
  }

  /** The defaults pass every range check; only the empty pharmacy fails. */
  lemma DefaultDeviceFormNeedsPharmacy()
    ensures ValidateDeviceForm(DEFAULT_DEVICE_FORM) == DeviceErrors(true, false, false, false, false)
    ensures forall p: Id :: p != [] ==> DeviceFormValid(DEFAULT_DEVICE_FORM.(pharmacyId := p))
  {
  }

  /** A range the form accepts has strictly ordered bounds inside 0..100
      percent humidity, so the compliance check accepts readings inside it
      and refuses readings just past either temperature bound. */
  lemma ValidRangeIsUsable(f: DeviceForm)
    requires DeviceFormValid(f)
    ensures var r := f.normalRange;
            && Compliance.WithinRange(r.temperature.min, r.humidity.min, r)
            && Compliance.WithinRange(r.temperature.max, r.humidity.max, r)
            && !Compliance.WithinRange(r.temperature.max + 1, r.humidity.min, r)
            && !Compliance.WithinRange(r.temperature.min - 1, r.humidity.min, r)
            && 0 <= r.humidity.min < r.humidity.max <= 100
  {
  }
}

=== FILE: lot_store.dfy ===
/** The two operations that change stored data: `writeOffMedication`, a
    check-then-decrement on one lot plus an append to the write-off ledger,
    and `updateMedicationQuantity`, an unchecked overwrite of one lot's
    quantity. Each is a pure transition on a `Store` value, and `LotStore`
    is the mutable store whose methods are proved to perform them. */
module LotStore {
  import opened Util
  import opened Entities

  /** The lots collection and the write-off ledger together. */
  datatype Store = Store(lots: seq<Lot>, writeOffs: seq<WriteOff>)

  /** The request body of a write-off. `quantity` is None when left out. */
  datatype WriteOffRequest = WriteOffRequest(lotId: Id, quantity: Option<int>, reason: string)

  datatype WriteOffOutcome =
    | WrittenOff            // 200
    | MissingFields         // 400: an empty id or reason, or an absent or zero quantity
    | LotNotFound           // 404
    | InsufficientQuantity  // 400: the lot holds less than requested

  datatype UpdateOutcome = Updated | UpdateLotNotFound

  /** The source's `!id || !quantity || !reason` guard, negated. */
  predicate FieldsPresent(req: WriteOffRequest)
  {
    req.lotId != [] && req.quantity.Some? && req.quantity.value != 0 && req.reason != []
  }

  /** `writeOffMedication` as a transition: the outcome and the new store.
      `user` is the authenticated caller and `now` the clock reading. */
  function WriteOffStep(s: Store, req: WriteOffRequest, user: Id, now: int): (r: (WriteOffOutcome, Store))
    ensures r.0 != WrittenOff ==> r.1 == s
    ensures r.0 == MissingFields <==> !FieldsPresent(req)
    ensures r.0 == LotNotFound <==> FieldsPresent(req) && FindLot(s.lots, req.lotId).None?
    ensures r.0 == WrittenOff ==>
      var i := FindLot(s.lots, req.lotId).value;
      var q := req.quantity.value;
      && FieldsPresent(req) && q <= s.lots[i].quantity
      && |r.1.lots| == |s.lots|
      && r.1.lots[i].quantity == s.lots[i].quantity - q
      && r.1.writeOffs == s.writeOffs + [WriteOff(user, s.lots[i].medication, s.lots[i].pharmacy, q, req.reason, now)]
  {
    if !FieldsPresent(req) then (MissingFields, s)
    else match FindLot(s.lots, req.lotId)
      case None => (LotNotFound, s)
      case Some(i) =>
        var lot := s.lots[i];
        var q := req.quantity.value;
        if lot.quantity < q then (InsufficientQuantity, s)
        else
          var record := WriteOff(user, lot.medication, lot.pharmacy, q, req.reason, now);
          (WrittenOff, Store(s.lots[i := lot.(quantity := lot.quantity - q)], s.writeOffs + [record]))
  }

  /** `updateMedicationQuantity` as a transition: no check on the new value. */
  function UpdateStep(s: Store, lotId: Id, newQuantity: int): (r: (UpdateOutcome, Store))
    ensures r.0 == UpdateLotNotFound <==> FindLot(s.lots, lotId).None?
    ensures r.0 == UpdateLotNotFound ==> r.1 == s
    ensures r.0 == Updated ==>
      var i := FindLot(s.lots, lotId).value;
      && r.1.writeOffs == s.writeOffs
      && |r.1.lots| == |s.lots|
      && r.1.lots[i] == s.lots[i].(quantity := newQuantity)
      && forall j :: 0 <= j < |s.lots| && j != i ==> r.1.lots[j] == s.lots[j]
  {
    match FindLot(s.lots, lotId)
    case None => (UpdateLotNotFound, s)
    case Some(i) => (Updated, s.(lots := s.lots[i := s.lots[i].(quantity := newQuantity)]))
  }

  // ----- properties of the transitions -----

  lemma {:induction false} LotQuantityUpdate(lots: seq<Lot>, i: nat, q: int)
    requires i < |lots|
    ensures LotQuantity(lots[i := lots[i].(quantity := q)]) == LotQuantity(lots) - lots[i].quantity + q
  {
    if i > 0 {
      LotQuantityUpdate(lots[1..], i - 1, q);
      assert lots[i := lots[i].(quantity := q)][1..] == lots[1..][i - 1 := lots[i].(quantity := q)];
    }
  }

  lemma {:induction false} WrittenOffQuantityAppend(ledger: seq<WriteOff>, w: WriteOff)
    ensures WrittenOffQuantity(ledger + [w]) == WrittenOffQuantity(ledger) + w.quantity
  {
    if ledger != [] {
      WrittenOffQuantityAppend(ledger[1..], w);
      assert (ledger + [w])[1..] == ledger[1..] + [w];
    }
  }

  /** Stock on hand plus stock written off never changes: every unit taken
      from a lot is recorded in the ledger. */
  lemma WriteOffConservesStock(s: Store, req: WriteOffRequest, user: Id, now: int)
    ensures var s' := WriteOffStep(s, req, user, now).1;
            LotQuantity(s'.lots) + WrittenOffQuantity(s'.writeOffs)
              == LotQuantity(s.lots) + WrittenOffQuantity(s.writeOffs)
  {
    var r := WriteOffStep(s, req, user, now);
    if r.0 == WrittenOff {
      var i := FindLot(s.lots, req.lotId).value;
      var q := req.quantity.value;
      LotQuantityUpdate(s.lots, i, s.lots[i].quantity - q);
      WrittenOffQuantityAppend(s.writeOffs,
        WriteOff(user, s.lots[i].medication, s.lots[i].pharmacy, q, req.reason, now));
    }
  }

  /** A write-off never drives a lot negative: when every lot holds a
      non-negative quantity before, every lot does after. */
  lemma WriteOffKeepsStockNonNegative(s: Store, req: WriteOffRequest, user: Id, now: int)
    requires forall j :: 0 <= j < |s.lots| ==> s.lots[j].quantity >= 0
    ensures var s' := WriteOffStep(s, req, user, now).1;
            forall j :: 0 <= j < |s'.lots| ==> s'.lots[j].quantity >= 0
  {
  }

  /** Only the addressed lot changes, and it keeps everything but its quantity. */
  lemma WriteOffTouchesOneLot(s: Store, req: WriteOffRequest, user: Id, now: int)
    requires WriteOffStep(s, req, user, now).0 == WrittenOff
    ensures var s' := WriteOffStep(s, req, user, now).1;
            var i := FindLot(s.lots, req.lotId).value;
            && s'.lots[i] == s.lots[i].(quantity := s'.lots[i].quantity)
            && forall j :: 0 <= j < |s.lots| && j != i ==> s'.lots[j] == s.lots[j]
  {
  }

  /** The write-off succeeds exactly when the fields are present, the lot
      exists and it holds at least the requested quantity. */
  lemma WriteOffSucceedsIff(s: Store, req: WriteOffRequest, user: Id, now: int)
    ensures WriteOffStep(s, req, user, now).0 == WrittenOff
        <==> FieldsPresent(req) && FindLot(s.lots, req.lotId).Some?
             && req.quantity.value <= s.lots[FindLot(s.lots, req.lotId).value].quantity
  {
  }

  /** The server checks only that the quantity is non-zero: a negative
      write-off against a lot with non-negative stock passes and adds stock. */
  lemma NegativeWriteOffAddsStock(s: Store, req: WriteOffRequest, user: Id, now: int)
    requires req.lotId != [] && req.reason != [] && req.quantity.Some? && req.quantity.value < 0
    requires FindLot(s.lots, req.lotId).Some? && s.lots[FindLot(s.lots, req.lotId).value].quantity >= 0
    ensures var i := FindLot(s.lots, req.lotId).value;
            && WriteOffStep(s, req, user, now).0 == WrittenOff
            && WriteOffStep(s, req, user, now).1.lots[i].quantity > s.lots[i].quantity
  {
  }

  /** Writing off the whole of a lot of 3 empties it; a further unit is
      refused and changes nothing. */
  lemma WriteOffScenario()
    ensures var lot := Lot("L1", "P1", "M1", 100, 0, 3, "B1");
            var s0 := Store([lot], []);
            var r1 := WriteOffStep(s0, WriteOffRequest("L1", Some(3), "expired"), "U1", 10);
            var r2 := WriteOffStep(r1.1, WriteOffRequest("L1", Some(1), "expired"), "U1", 20);
            && r1.0 == WrittenOff && r1.1.lots[0].quantity == 0 && |r1.1.writeOffs| == 1
            && r2.0 == InsufficientQuantity && r2.1 == r1.1
  {
  }

  /** Overwriting changes the stock by the difference and nothing else. */
  lemma UpdateChangesStockByDifference(s: Store, lotId: Id, newQuantity: int)
    requires FindLot(s.lots, lotId).Some?
    ensures var i := FindLot(s.lots, lotId).value;
            LotQuantity(UpdateStep(s, lotId, newQuantity).1.lots)
              == LotQuantity(s.lots) - s.lots[i].quantity + newQuantity
  {
    LotQuantityUpdate(s.lots, FindLot(s.lots, lotId).value, newQuantity);
  }

  /** Repeating an overwrite has no further effect. */
  lemma UpdateIdempotent(s: Store, lotId: Id, newQuantity: int)
    ensures var s1 := UpdateStep(s, lotId, newQuantity).1;
            UpdateStep(s1, lotId, newQuantity) == (UpdateStep(s, lotId, newQuantity).0, s1)
  {
    var r := UpdateStep(s, lotId, newQuantity);
    if r.0 == Updated {
      var i := FindLot(s.lots, lotId).value;
      assert FindLot(r.1.lots, lotId) == Some(i) by {
        assert forall j :: 0 <= j < i ==> r.1.lots[j].id == s.lots[j].id;
      }
      assert r.1.lots[i := r.1.lots[i].(quantity := newQuantity)] == r.1.lots;
    }
  }

  // ----- the mutable store -----

  /** The server's lot collection and write-off ledger. */
  class LotStore {
    var lots: seq<Lot>
    var writeOffs: seq<WriteOff>

    function State(): Store
      reads this
    {
      Store(lots, writeOffs)
    }

    constructor(lots0: seq<Lot>, ledger0: seq<WriteOff>)
      ensures State() == Store(lots0, ledger0)
    {
      lots := lots0;
      writeOffs := ledger0;
    }

    /** Position of the lot with the id (`findById`), or |lots| when absent. */
    method FindById(id: Id) returns (i: nat)
      ensures FindLot(lots, id).None? ==> i == |lots|
      ensures FindLot(lots, id).Some? ==> i == FindLot(lots, id).value
    {
      i := 0;
      while i < |lots| && lots[i].id != id
        invariant 0 <= i <= |lots|
        invariant forall j :: 0 <= j < i ==> lots[j].id != id
      {
        i := i + 1;
      }
    }

    /** `writeOffMedication`: check the fields, find the lot, refuse an
        over-draw, then decrement the lot and append the ledger record. */
    method WriteOffMedication(req: WriteOffRequest, user: Id, now: int) returns (outcome: WriteOffOutcome)
      modifies this
      ensures (outcome, State()) == WriteOffStep(old(State()), req, user, now)
    {
      if req.lotId == [] || req.quantity.None? || req.quantity.value == 0 || req.reason == [] {
        return MissingFields;
      }
      var i := FindById(req.lotId);
      if i == |lots| {
        return LotNotFound;
      }
      var q := req.quantity.value;
      if lots[i].quantity < q {
        return InsufficientQuantity;
      }
      var lot := lots[i];
      lots := lots[i := lot.(quantity := lot.quantity - q)];
      writeOffs := writeOffs + [WriteOff(user, lot.medication, lot.pharmacy, q, req.reason, now)];
      outcome := WrittenOff;
    }

    /** `updateMedicationQuantity`: find the lot and overwrite its quantity. */
    method UpdateMedicationQuantity(lotId: Id, newQuantity: int) returns (outcome: UpdateOutcome)
      modifies this
      ensures (outcome, State()) == UpdateStep(old(State()), lotId, newQuantity)
    {
      var i := FindById(lotId);
      if i == |lots| {
        return UpdateLotNotFound;
      }
      lots := lots[i := lots[i].(quantity := newQuantity)];
      outcome := Updated;
    }
  }
}

=== FILE: pharmacies_page.dfy ===
/** The pharmacy page of the web client: the pharmacy form check. */
module PharmaciesPage {
  import opened Entities

  datatype PharmacyForm = PharmacyForm(
    name: string,
    address: string,
    workingHours: string,
    maxStorageSize: int,
    bonusPercent: int,
    managerId: Id)

  datatype PharmacyErrors = PharmacyErrors(
    name: bool, address: bool, workingHours: bool,
    maxStorageSize: bool, bonusPercent: bool, managerId: bool)

  const NO_PHARMACY_ERRORS := PharmacyErrors(false, false, false, false, false, false)

  /** The form's initial values. */
  const EMPTY_PHARMACY_FORM := PharmacyForm("", "", "", 0, 0, "")

  /** `validateForm`. */
  function ValidatePharmacyForm(f: PharmacyForm): (e: PharmacyErrors)
    ensures e.maxStorageSize <==> f.maxStorageSize <= 0
    ensures e.bonusPercent <==> !(0 <= f.bonusPercent <= 100)
    ensures e.name <==> f.name == []
    ensures e.address <==> f.address == []
    ensures e.workingHours <==> f.workingHours == []
    ensures e.managerId <==> f.managerId == []
  {
    PharmacyErrors(
      f.name == [],
      f.address == [],
      f.workingHours == [],
      f.maxStorageSize <= 0,
      f.bonusPercent < 0 || f.bonusPercent > 100,
      f.managerId == [])
  }

  predicate PharmacyFormValid(f: PharmacyForm)
  {
    ValidatePharmacyForm(f) == NO_PHARMACY_ERRORS
  }

  /** Valid exactly when the four text fields are set, the storage size is
      positive and the bonus lies in 0..100 with both ends allowed. */
  lemma PharmacyFormValidIff(f: PharmacyForm)
    ensures PharmacyFormValid(f) <==>
      && f.name != [] && f.address != [] && f.workingHours != [] && f.managerId != []
      && f.maxStorageSize > 0 && 0 <= f.bonusPercent <= 100
  {
  }

  /** The untouched form fails on every field but the bonus (0 is allowed). */
  lemma EmptyPharmacyFormErrors()
    ensures ValidatePharmacyForm(EMPTY_PHARMACY_FORM) == PharmacyErrors(true, true, true, true, false, true)
  {
  }
}

=== FILE: reports_page.dfy ===
/** The report page of the web client: the checks made before each report
    request, the query each request carries, and the derived usage report. */
module ReportsPage {
  import opened Util
  import opened Entities
  import opened ClientForms
  import Snapshot

  /** The query of the sales and write-off requests: pharmacy, start and end,
      each only when set, in that order. */
  function ReportQuery(f: FilterData): (q: seq<QueryParam>)
    ensures |q| <= 3
  {
    AppendIfSet(AppendIfSet(AppendIfSet([], "pharmacyId", f.pharmacyId), "startDate", f.startDate.text),
                "endDate", f.endDate.text)
  }

  /** The sales report request (the write-off report request is the same
      code): None when the filter check stops it, else its query. */
  function ReportRequest(f: FilterData): (r: Option<seq<QueryParam>>)
    ensures r.None? <==> !FilterValid(f)
    ensures r.Some? ==> r.value == ReportQuery(f)
  {
    if FilterValid(f) then Some(ReportQuery(f)) else None
  }

  /** Each parameter is sent exactly when its field is set, with the
      field's text as value. */
  lemma ReportQueryCarriesSetFields(f: FilterData)
    ensures Lookup(ReportQuery(f), "pharmacyId") == Param(f.pharmacyId)
    ensures Lookup(ReportQuery(f), "startDate") == Param(f.startDate.text)
    ensures Lookup(ReportQuery(f), "endDate") == Param(f.endDate.text)
    ensures Lookup(ReportQuery(f), "medicationId").None?
  {
    var q1 := AppendIfSet([], "pharmacyId", f.pharmacyId);
    var q2 := AppendIfSet(q1, "startDate", f.startDate.text);
    LookupStages(q1, q2, f, "pharmacyId");
    LookupStages(q1, q2, f, "startDate");
    LookupStages(q1, q2, f, "endDate");
    LookupStages(q1, q2, f, "medicationId");
  }

  lemma LookupStages(q1: seq<QueryParam>, q2: seq<QueryParam>, f: FilterData, name: string)
    requires q1 == AppendIfSet([], "pharmacyId", f.pharmacyId)
    requires q2 == AppendIfSet(q1, "startDate", f.startDate.text)
    ensures Lookup(ReportQuery(f), name)
         == if Lookup(q2, name).Some? then Lookup(q2, name)
            else if name == "endDate" then Param(f.endDate.text) else None
    ensures Lookup(q2, name)
         == if Lookup(q1, name).Some? then Lookup(q1, name)
            else if name == "startDate" then Param(f.startDate.text) else None
    ensures Lookup(q1, name) == if name == "pharmacyId" then Param(f.pharmacyId) else None
  {
    LookupAppendIfSet([], "pharmacyId", f.pharmacyId, name);
    LookupAppendIfSet(q1, "startDate", f.startDate.text, name);
    LookupAppendIfSet(q2, "endDate", f.endDate.text, name);
  }

  /** A request that is sent always names the pharmacy. */
  lemma ReportRequestNamesPharmacy(f: FilterData)
    requires ReportRequest(f).Some?
    ensures Lookup(ReportRequest(f).value, "pharmacyId") == Some(f.pharmacyId)
  {
    ReportQueryCarriesSetFields(f);
  }

  /** The snapshot request checks only the pharmacy and sends only it. */
  function SnapshotRequest(f: FilterData): (r: Option<seq<QueryParam>>)
    ensures r.None? <==> f.pharmacyId == []
    ensures r.Some? ==> r.value == [QueryParam("pharmacyId", f.pharmacyId)]
  {
    if f.pharmacyId == [] then None else Some(AppendIfSet([], "pharmacyId", f.pharmacyId))
  }

  /** Dates out of order stop the report requests but not the snapshot. */
  lemma SnapshotIgnoresDates(f: FilterData)
    requires f.pharmacyId != [] && Later(f.startDate, f.endDate)
    requires f.startDate.text != [] && f.endDate.text != []
    ensures ReportRequest(f).None? && SnapshotRequest(f).Some?
  {
  }

  /** A received report, reduced to the total the page reads; None when
      the field is missing. */
  datatype ReportTotal = ReportTotal(totalQuantity: Option<int>)

  /** A JavaScript number produced by the ratio: finite or infinite. */
  datatype Ratio = Finite(value: real) | PosInfinity | NegInfinity

  datatype UsageReport = UsageReport(
    totalSales: int,
    totalWriteOffs: int,
    totalUsage: int,
    usageRatio: Ratio,
    snapshot: seq<Snapshot.SnapshotRow>)

  /** `x || 0` on a total. */
  function OrZero(x: Option<int>): (r: int)
    ensures x.None? ==> r == 0
    ensures x.Some? ==> r == x.value
  {
    if x.None? then 0 else x.value
  }

  /** `(sales / (sales + writeOffs) * 100) || 0`. Division by zero gives
      NaN for 0 (replaced by 0) and an infinity of the numerator's sign. */
  function UsageRatio(sales: int, writeOffs: int): (r: Ratio)
    ensures sales + writeOffs != 0 ==> r == Finite(100.0 * sales as real / (sales + writeOffs) as real)
    ensures sales + writeOffs == 0 ==> (sales == 0 <==> r == Finite(0.0))
  {
    var total := sales + writeOffs;
    if total == 0 then
      if sales > 0 then PosInfinity else if sales < 0 then NegInfinity else Finite(0.0)
    else Finite(100.0 * sales as real / total as real)
  }

  /** `usageReport`: present only when both reports are present. The
      snapshot state starts as an empty list and only ever holds the
      server's list, so it is always present (an empty array is truthy). */
  function UsageReportOf(sales: Option<ReportTotal>, writeOffs: Option<ReportTotal>, snapshot: seq<Snapshot.SnapshotRow>)
    : (r: Option<UsageReport>)
    ensures r.Some? <==> sales.Some? && writeOffs.Some?
    ensures r.Some? ==>
      var s := OrZero(sales.value.totalQuantity);
      var w := OrZero(writeOffs.value.totalQuantity);
      && r.value.totalSales == s && r.value.totalWriteOffs == w
      && r.value.totalUsage == r.value.totalSales + r.value.totalWriteOffs
      && r.value.usageRatio == UsageRatio(s, w)
      && r.value.snapshot == snapshot
  {
    if sales.Some? && writeOffs.Some? then
      var s := OrZero(sales.value.totalQuantity);
      var w := OrZero(writeOffs.value.totalQuantity);
      Some(UsageReport(s, w, s + w, UsageRatio(s, w), snapshot))
    else None
  }

  lemma RatioBounds(s: real, t: real)
    requires 0.0 <= s <= t && t > 0.0
    ensures 0.0 <= 100.0 * s / t <= 100.0
  {
    assert s / t <= 1.0;
    assert 100.0 * s / t == 100.0 * (s / t);
  }

  /** For non-negative totals the ratio is a percentage in [0, 100], it is
      0 exactly when nothing was sold, and times the usage it gives 100
      times the sales. */
  lemma UsageRatioIsPercentage(sales: int, writeOffs: int)
    requires sales >= 0 && writeOffs >= 0
    ensures UsageRatio(sales, writeOffs).Finite?
    ensures 0.0 <= UsageRatio(sales, writeOffs).value <= 100.0
    ensures UsageRatio(sales, writeOffs).value == 0.0 <==> sales == 0
    ensures sales + writeOffs > 0 ==>
      UsageRatio(sales, writeOffs).value * (sales + writeOffs) as real == 100.0 * sales as real
  {
    if sales + writeOffs > 0 {
      RatioBounds(sales as real, (sales + writeOffs) as real);
      var t := (sales + writeOffs) as real;
      assert (100.0 * sales as real / t) * t == 100.0 * sales as real;
    }
  }

  /** Sales and write-offs summing to zero with sales non-zero give an
      infinite ratio: `|| 0` only catches 0/0. */
  lemma UsageRatioInfinite()
    ensures UsageRatio(5, -5) == PosInfinity
  {
  }
}

=== FILE: sales_report.dfy ===
/** The sales report (`InventoryController.getSalesReport`): transactions
    joined to their lot and the lot's catalog medication, filtered, grouped by
    lot, sorted by quantity and cut to the top five. */
module SalesReport {
  import opened Util
  import opened Entities
  import opened Grouping

  /** Query filters; None is an absent or empty query parameter. The
      `medicationId` filter is compared with the transaction's lot reference. */
  datatype SalesFilter = SalesFilter(
    pharmacyId: Option<QueryText>,
    medicationId: Option<QueryText>,
    category: Option<QueryText>,
    startDate: Option<int>,
    endDate: Option<int>)

  /** A transaction after both `$lookup`/`$unwind` stages. */
  datatype SaleRow = SaleRow(
    lot: Id, pharmacy: Id, name: string, category: string,
    quantity: int, price: int, date: int)

  /** The `$group` key: the lot reference and the medication's name. */
  datatype SalesKey = SalesKey(lot: Id, name: string)

  datatype TopSale = TopSale(medication: string, quantity: int, revenue: int)

  datatype SalesReportData = SalesReportData(totalQuantity: int, totalRevenue: int, topMedications: seq<TopSale>)

  /** `row` is what the two `$lookup`/`$unwind` stages make of `t`: its lot
      and that lot's medication both exist, and the row carries the lot's
      pharmacy, the medication's name and category and the sale's figures. */
  predicate JoinsTo(t: Transaction, lots: seq<Lot>, meds: seq<Medication>, row: SaleRow)
  {
    match FindLot(lots, t.lot)
    case None => false
    case Some(i) =>
      match FindMedication(meds, lots[i].medication)
      case None => false
      case Some(m) => row == SaleRow(t.lot, lots[i].pharmacy, m.name, m.category, t.quantity, t.price, t.date)
  }

  /** Join each transaction with its lot and that lot's medication. An
      `$unwind` drops a transaction whose lot or medication is gone. */
  function JoinSales(transactions: seq<Transaction>, lots: seq<Lot>, meds: seq<Medication>): (r: seq<SaleRow>)
    ensures |r| <= |transactions|
    ensures forall row :: row in r <==> exists t :: t in transactions && JoinsTo(t, lots, meds, row)
  {
    if transactions == [] then []
    else
      var t := transactions[0];
      var rest := JoinSales(transactions[1..], lots, meds);
      var head :=
        match FindLot(lots, t.lot)
        case None => []
        case Some(i) =>
          match FindMedication(meds, lots[i].medication)
          case None => []
          case Some(m) => [SaleRow(t.lot, lots[i].pharmacy, m.name, m.category, t.quantity, t.price, t.date)];
      JoinStep(t, transactions[1..], lots, meds, head, rest);
      assert transactions == [t] + transactions[1..];
      head + rest
  }

  /** One step of the join: the rows of `t` followed by the rows of `ts`
      are the rows of `[t] + ts`. */
  lemma JoinStep(t: Transaction, ts: seq<Transaction>, lots: seq<Lot>, meds: seq<Medication>,
                 head: seq<SaleRow>, rest: seq<SaleRow>)
    requires forall row :: row in head <==> JoinsTo(t, lots, meds, row)
    requires forall row :: row in rest <==> exists u :: u in ts && JoinsTo(u, lots, meds, row)
    ensures forall row :: row in head + rest <==> exists u :: u in [t] + ts && JoinsTo(u, lots, meds, row)
  {
    forall row
      ensures row in head + rest <==> exists u :: u in [t] + ts && JoinsTo(u, lots, meds, row)
    {
      if row in head {
        assert t in [t] + ts;
      } else if row in rest {
        var u :| u in ts && JoinsTo(u, lots, meds, row);
        assert u in [t] + ts;
      }
    }
  }

  /** `$gte` start and `$lte` end: both bounds inclusive, each optional. */
  predicate InDateRange(date: int, start: Option<int>, end: Option<int>)
  {
    (start.None? || start.value <= date) && (end.None? || date <= end.value)
  }

  predicate SaleMatches(row: SaleRow, f: SalesFilter)
  {
    && (f.category.None? || row.category == f.category.value)
    && (f.pharmacyId.None? || row.pharmacy == f.pharmacyId.value)
    && (f.medicationId.None? || row.lot == f.medicationId.value)
    && InDateRange(row.date, f.startDate, f.endDate)
  }

  function MatchingSales(rows: seq<SaleRow>, f: SalesFilter): (r: seq<SaleRow>)
    ensures forall x :: x in r <==> x in rows && SaleMatches(x, f)
  {
    if rows == [] then []
    else if SaleMatches(rows[0], f) then [rows[0]] + MatchingSales(rows[1..], f)
    else MatchingSales(rows[1..], f)
  }

  /** The items to group: quantity and `quantity * price` under the row's key. */
  function SaleEntries(rows: seq<SaleRow>): (r: seq<Entry<SalesKey>>)
    ensures |r| == |rows|
    ensures forall i :: 0 <= i < |rows| ==>
      r[i] == Entry(SalesKey(rows[i].lot, rows[i].name), rows[i].quantity, rows[i].quantity * rows[i].price)
  {
    if rows == [] then []
    else [Entry(SalesKey(rows[0].lot, rows[0].name), rows[0].quantity, rows[0].quantity * rows[0].price)]
         + SaleEntries(rows[1..])
  }

  /** Units sold, summed row by row. */
  function UnitsSold(rows: seq<SaleRow>): int
  {
    if rows == [] then 0 else rows[0].quantity + UnitsSold(rows[1..])
  }

  /** Revenue, summed row by row as quantity times price. */
  function Revenue(rows: seq<SaleRow>): int
  {
    if rows == [] then 0 else rows[0].quantity * rows[0].price + Revenue(rows[1..])
  }

  function ToTopSales(groups: seq<Entry<SalesKey>>): (r: seq<TopSale>)
    ensures |r| == |groups|
    ensures forall i :: 0 <= i < |r| ==>
      r[i] == TopSale(groups[i].key.name, groups[i].quantity, groups[i].amount)
  {
    if groups == [] then []
    else [TopSale(groups[0].key.name, groups[0].quantity, groups[0].amount)] + ToTopSales(groups[1..])
  }

  /** The groups of the matching sales, largest quantity first (unsliced). */
  function SalesGroups(transactions: seq<Transaction>, lots: seq<Lot>, meds: seq<Medication>, f: SalesFilter)
    : seq<Entry<SalesKey>>
  {
    SortByQuantityDesc(Tally(SaleEntries(MatchingSales(JoinSales(transactions, lots, meds), f))))
  }

  /** `getSalesReport`. With no matching sale the pipeline yields nothing and
      the controller answers zeros. */
  function GetSalesReport(transactions: seq<Transaction>, lots: seq<Lot>, meds: seq<Medication>, f: SalesFilter)
    : (r: SalesReportData)
    ensures |r.topMedications| <= TOP_N
    ensures forall i, j :: 0 <= i < j < |r.topMedications| ==>
      r.topMedications[i].quantity >= r.topMedications[j].quantity
  {
    var groups := SalesGroups(transactions, lots, meds, f);
    if groups == [] then SalesReportData(0, 0, [])
    else SalesReportData(SumQuantity(groups), SumAmount(groups), ToTopSales(Top(groups)))
  }

  lemma {:induction false} SaleEntriesSums(rows: seq<SaleRow>)
    ensures SumQuantity(SaleEntries(rows)) == UnitsSold(rows)
    ensures SumAmount(SaleEntries(rows)) == Revenue(rows)
  {
    if rows != [] {
      SaleEntriesSums(rows[1..]);
      assert SaleEntries(rows)[1..] == SaleEntries(rows[1..]);
    }
  }

  /** The totals are the units and the revenue of exactly the matching sales,
      and they equal the sums over the complete (unsliced) list of groups. */
  lemma SalesReportTotals(transactions: seq<Transaction>, lots: seq<Lot>, meds: seq<Medication>, f: SalesFilter)
    ensures var rows := MatchingSales(JoinSales(transactions, lots, meds), f);
            var r := GetSalesReport(transactions, lots, meds, f);
            && r.totalQuantity == UnitsSold(rows)
            && r.totalRevenue == Revenue(rows)
            && r.totalQuantity == SumQuantity(SalesGroups(transactions, lots, meds, f))
            && r.totalRevenue == SumAmount(SalesGroups(transactions, lots, meds, f))
  {
    var rows := MatchingSales(JoinSales(transactions, lots, meds), f);
    var entries := SaleEntries(rows);
    SaleEntriesSums(rows);
    TallyPreservesSums(entries);
    SortByQuantityDescContents(Tally(entries));
  }

  /** No matching sale gives the zero report. */
  lemma SalesReportEmpty(transactions: seq<Transaction>, lots: seq<Lot>, meds: seq<Medication>, f: SalesFilter)
    requires MatchingSales(JoinSales(transactions, lots, meds), f) == []
    ensures GetSalesReport(transactions, lots, meds, f) == SalesReportData(0, 0, [])
  {
  }

  /** Every listed medication is a real group: the top list is the leading
      part of the full sorted grouping. */
  lemma SalesTopIsPrefix(transactions: seq<Transaction>, lots: seq<Lot>, meds: seq<Medication>, f: SalesFilter)
    ensures var g := SalesGroups(transactions, lots, meds, f);
            var top := GetSalesReport(transactions, lots, meds, f).topMedications;
            && |top| == (if |g| < TOP_N then |g| else TOP_N)
            && forall i :: 0 <= i < |top| ==> top[i] == TopSale(g[i].key.name, g[i].quantity, g[i].amount)
  {
  }

  /** Each matching sale lands in the group of its own lot: that group's
      quantity and revenue are those of the matching sales of that lot and
      name. Two lots of one catalog medication therefore form two groups. */
  lemma SalesGroupOfLot(transactions: seq<Transaction>, lots: seq<Lot>, meds: seq<Medication>, f: SalesFilter, j: nat)
    requires j < |MatchingSales(JoinSales(transactions, lots, meds), f)|
    ensures var rows := MatchingSales(JoinSales(transactions, lots, meds), f);
            var key := SalesKey(rows[j].lot, rows[j].name);
            var g := SalesGroups(transactions, lots, meds, f);
            exists i :: 0 <= i < |g| && g[i].key == key
              && g[i].quantity == QuantityOfKey(SaleEntries(rows), key)
              && g[i].amount == AmountOfKey(SaleEntries(rows), key)
  {
    var rows := MatchingSales(JoinSales(transactions, lots, meds), f);
    var entries := SaleEntries(rows);
    var key := SalesKey(rows[j].lot, rows[j].name);
    assert entries[j].key == key;
    GroupOfItem(entries, j);
    var g := SortByQuantityDesc(Tally(entries));
    assert g == SalesGroups(transactions, lots, meds, f);
    var i :| 0 <= i < |g| && g[i].key == entries[j].key
      && g[i].quantity == QuantityOfKey(entries, entries[j].key)
      && g[i].amount == AmountOfKey(entries, entries[j].key);
    assert g[i].key == key;
  }
}

=== FILE: snapshot.dfy ===
/** The inventory snapshot (`InventoryController.getInventorySnapshot`):
    every lot matching the optional pharmacy and catalog-medication filters,
    projected to its id, its medication reference and its quantity. */
module Snapshot {
  import opened Util
  import opened Entities

  datatype SnapshotFilter = SnapshotFilter(pharmacyId: Option<QueryText>, medicationId: Option<QueryText>)

  /** `populate('medication', 'name')`: id and name, or null when gone. */
  datatype MedicationRef = MedicationRef(id: Id, name: string)

  datatype SnapshotRow = SnapshotRow(lot: Id, medication: Option<MedicationRef>, quantity: int)

  predicate LotSelected(l: Lot, f: SnapshotFilter)
  {
    (f.pharmacyId.None? || l.pharmacy == f.pharmacyId.value)
    && (f.medicationId.None? || l.medication == f.medicationId.value)
  }

  /** `MedicationInPharmacy.find(query)`, in store order. */
  function SelectedLots(lots: seq<Lot>, f: SnapshotFilter): (r: seq<Lot>)
    ensures |r| <= |lots|
    ensures forall l :: l in r <==> l in lots && LotSelected(l, f)
  {
    if lots == [] then []
    else if LotSelected(lots[0], f) then [lots[0]] + SelectedLots(lots[1..], f)
    else SelectedLots(lots[1..], f)
  }

  function MedicationRefOf(meds: seq<Medication>, id: Id): (r: Option<MedicationRef>)
    ensures r.None? <==> FindMedication(meds, id).None?
    ensures r.Some? ==> r.value == MedicationRef(id, FindMedication(meds, id).value.name)
  {
    match FindMedication(meds, id)
    case None => None
    case Some(m) => Some(MedicationRef(m.id, m.name))
  }

  function Project(lots: seq<Lot>, meds: seq<Medication>): (r: seq<SnapshotRow>)
    ensures |r| == |lots|
    ensures forall i :: 0 <= i < |lots| ==>
      r[i] == SnapshotRow(lots[i].id, MedicationRefOf(meds, lots[i].medication), lots[i].quantity)
  {
    if lots == [] then []
    else [SnapshotRow(lots[0].id, MedicationRefOf(meds, lots[0].medication), lots[0].quantity)] + Project(lots[1..], meds)
  }

  /** `getInventorySnapshot`: one row per selected lot, in store order. */
  function InventorySnapshot(lots: seq<Lot>, meds: seq<Medication>, f: SnapshotFilter): (r: seq<SnapshotRow>)
    ensures |r| == |SelectedLots(lots, f)|
    ensures forall i :: 0 <= i < |r| ==>
      && r[i].lot == SelectedLots(lots, f)[i].id
      && r[i].medication == MedicationRefOf(meds, SelectedLots(lots, f)[i].medication)
      && r[i].quantity == SelectedLots(lots, f)[i].quantity
  {
    Project(SelectedLots(lots, f), meds)
  }

  function RowQuantity(rows: seq<SnapshotRow>): int
  {
    if rows == [] then 0 else rows[0].quantity + RowQuantity(rows[1..])
  }

  lemma {:induction false} ProjectQuantity(lots: seq<Lot>, meds: seq<Medication>)
    ensures RowQuantity(Project(lots, meds)) == LotQuantity(lots)
  {
    if lots != [] {
      ProjectQuantity(lots[1..], meds);
      assert Project(lots, meds)[1..] == Project(lots[1..], meds);
    }
  }

  /** The snapshot's quantities add up to the stock of the selected lots. */
  lemma SnapshotAccountsForStock(lots: seq<Lot>, meds: seq<Medication>, f: SnapshotFilter)
    ensures RowQuantity(InventorySnapshot(lots, meds, f)) == LotQuantity(SelectedLots(lots, f))
  {
    ProjectQuantity(SelectedLots(lots, f), meds);
  }

  /** Without filters the snapshot lists every lot, empty ones included. */
  lemma {:induction false} UnfilteredSnapshotIsComplete(lots: seq<Lot>, meds: seq<Medication>)
    ensures SelectedLots(lots, SnapshotFilter(None, None)) == lots
  {
    if lots != [] {
      UnfilteredSnapshotIsComplete(lots[1..], meds);
    }
  }

  /** Both filters together select what the pharmacy filter and then the
      medication filter select. */
  lemma {:induction false} SnapshotFiltersCompose(lots: seq<Lot>, p: QueryText, m: QueryText)
    ensures SelectedLots(lots, SnapshotFilter(Some(p), Some(m)))
         == SelectedLots(SelectedLots(lots, SnapshotFilter(Some(p), None)), SnapshotFilter(None, Some(m)))
  {
    if lots != [] {
      SnapshotFiltersCompose(lots[1..], p, m);
      var f := SnapshotFilter(Some(p), None);
      if LotSelected(lots[0], f) {
        assert SelectedLots(lots, f) == [lots[0]] + SelectedLots(lots[1..], f);
        assert SelectedLots(lots, f)[1..] == SelectedLots(lots[1..], f);
      }
    }
  }
}

=== FILE: statistics.dfy ===
/** Inventory statistics (`InventoryController.getInventoryStatistics`): the
    lots grouped by catalog medication, each group with its stock, its mean
    lot price and its average monthly sales since the first sale of any of
    its lots, ordered by medication name. */
module Statistics {
  import opened Util
  import opened Entities

  /** Length of the "month" the source divides by: thirty days. */
  const MS_PER_MONTH: int := 30 * MS_PER_DAY

  /** One output row. `medication` is the catalog name, absent when the
      catalog entry is gone (`$unwind` keeps such groups). Prices and sales
      rates are exact reals: `$round` to two decimals is not modelled. */
  datatype StatisticsRow = StatisticsRow(
    medication: Option<string>,
    totalQuantity: int,
    averagePrice: real,
    averageSalesPerMonth: real)

  ghost predicate Distinct(ids: seq<Id>)
  {
    forall i, j :: 0 <= i < j < |ids| ==> ids[i] != ids[j]
  }

  /** The `$group` keys: each catalog medication some lot refers to, once,
      in order of first appearance. */
  function MedicationIds(lots: seq<Lot>): (r: seq<Id>)
    ensures Distinct(r)
    ensures forall i :: 0 <= i < |lots| ==> lots[i].medication in r
    ensures forall m :: m in r ==> exists i :: 0 <= i < |lots| && lots[i].medication == m
  {
    if lots == [] then []
    else
      var n := |lots| - 1;
      var rest := MedicationIds(lots[..n]);
      assert forall i :: 0 <= i < n ==> lots[..n][i] == lots[i];
      if lots[n].medication in rest then rest else rest + [lots[n].medication]
  }

  /** The lots of one group. */
  function LotsOf(lots: seq<Lot>, m: Id): seq<Lot>
  {
    if lots == [] then []
    else if lots[0].medication == m then [lots[0]] + LotsOf(lots[1..], m)
    else LotsOf(lots[1..], m)
  }

  /** A lot is in the group of m exactly when it refers to m. */
  lemma {:induction false} LotsOfMembers(lots: seq<Lot>, m: Id, l: Lot)
    ensures l in LotsOf(lots, m) <==> l in lots && l.medication == m
  {
    if lots != [] {
      LotsOfMembers(lots[1..], m, l);
      assert lots == [lots[0]] + lots[1..];
    }
  }

  function PriceSum(lots: seq<Lot>): int
  {
    if lots == [] then 0 else lots[0].price + PriceSum(lots[1..])
  }

  /** `medicationInPharmacyIds: {$push: "$_id"}`. */
  function LotIds(lots: seq<Lot>): (r: seq<Id>)
    ensures |r| == |lots|
    ensures forall i :: 0 <= i < |lots| ==> r[i] == lots[i].id
  {
    if lots == [] then [] else [lots[0].id] + LotIds(lots[1..])
  }

  /** `salesData`: the transactions of any of the group's lots. */
  function SalesOf(transactions: seq<Transaction>, lotIds: seq<Id>): (r: seq<Transaction>)
    ensures forall t :: t in r <==> t in transactions && t.lot in lotIds
  {
    if transactions == [] then []
    else if transactions[0].lot in lotIds then [transactions[0]] + SalesOf(transactions[1..], lotIds)
    else SalesOf(transactions[1..], lotIds)
  }

  function SalesQuantity(sales: seq<Transaction>): int
  {
    if sales == [] then 0 else sales[0].quantity + SalesQuantity(sales[1..])
  }

  /** `$min` of the sale dates; absent for no sales. */
  function FirstSaleDate(sales: seq<Transaction>): (r: Option<int>)
    ensures r.None? <==> sales == []
    ensures r.Some? ==> exists t :: t in sales && t.date == r.value
    ensures r.Some? ==> forall t :: t in sales ==> r.value <= t.date
  {
    if sales == [] then None
    else
      var rest := FirstSaleDate(sales[1..]);
      if rest.Some? && rest.value < sales[0].date then rest else Some(sales[0].date)
  }

  /** `monthsSinceFirstSale`: whole thirty-day periods from the first sale
      to `now`, rounded up; 0 when there is no sale. */
  function MonthsSinceFirstSale(firstSale: Option<int>, now: int): (months: int)
    ensures firstSale.None? ==> months == 0
    ensures firstSale.Some? ==>
      MS_PER_MONTH * (months - 1) < now - firstSale.value <= MS_PER_MONTH * months
  {
    match firstSale
    case None => 0
    case Some(d) => CeilDiv(now - d, MS_PER_MONTH)
  }

  /** `averageSalesPerMonth`: sales divided by months when months > 0, else 0. */
  function AverageSalesPerMonth(totalSales: int, months: int): (r: real)
    ensures months > 0 ==> r * months as real == totalSales as real
    ensures months <= 0 ==> r == 0.0
  {
    if months > 0 then totalSales as real / months as real else 0.0
  }

  /** `$avg` over a non-empty group, without the rounding. */
  function Mean(sum: int, count: int): (r: real)
    requires count > 0
    ensures r * count as real == sum as real
  {
    sum as real / count as real
  }

  /** The row of one group of lots with the given catalog name and sales. */
  function GroupRow(name: Option<string>, group: seq<Lot>, sales: seq<Transaction>, now: int): (r: StatisticsRow)
    requires group != []
    ensures r.medication == name
    ensures r.totalQuantity == LotQuantity(group)
    ensures r.averagePrice * |group| as real == PriceSum(group) as real
    ensures var months := MonthsSinceFirstSale(FirstSaleDate(sales), now);
            && (months > 0 ==> r.averageSalesPerMonth * months as real == SalesQuantity(sales) as real)
            && (months <= 0 ==> r.averageSalesPerMonth == 0.0)
  {
    var months := MonthsSinceFirstSale(FirstSaleDate(sales), now);
    StatisticsRow(name, LotQuantity(group), Mean(PriceSum(group), |group|),
                  AverageSalesPerMonth(SalesQuantity(sales), months))
  }

  /** `medication: "$medication.name"`, absent when the catalog entry is gone. */
  function NameOf(meds: seq<Medication>, m: Id): (r: Option<string>)
    ensures r.None? <==> FindMedication(meds, m).None?
    ensures r.Some? ==> r.value == FindMedication(meds, m).value.name
  {
    match FindMedication(meds, m)
    case None => None
    case Some(x) => Some(x.name)
  }

  /** The row of the group of catalog medication m, before sorting. */
  function RowOf(lots: seq<Lot>, meds: seq<Medication>, transactions: seq<Transaction>, now: int, m: Id): StatisticsRow
    requires LotsOf(lots, m) != []
  {
    GroupRow(NameOf(meds, m), LotsOf(lots, m), SalesOf(transactions, LotIds(LotsOf(lots, m))), now)
  }

  /** Every group key has at least one lot. */
  lemma MedicationIdsStocked(lots: seq<Lot>)
    ensures forall m :: m in MedicationIds(lots) ==> LotsOf(lots, m) != []
  {
    forall m | m in MedicationIds(lots)
      ensures LotsOf(lots, m) != []
    {
      var i :| 0 <= i < |lots| && lots[i].medication == m;
      LotsOfMembers(lots, m, lots[i]);
    }
  }

  function Rows(lots: seq<Lot>, meds: seq<Medication>, transactions: seq<Transaction>, now: int, ids: seq<Id>)
    : (r: seq<StatisticsRow>)
    requires forall m :: m in ids ==> LotsOf(lots, m) != []
    ensures |r| == |ids|
    ensures forall i :: 0 <= i < |ids| ==> r[i] == RowOf(lots, meds, transactions, now, ids[i])
  {
    if ids == [] then []
    else [RowOf(lots, meds, transactions, now, ids[0])] + Rows(lots, meds, transactions, now, ids[1..])
  }

  // ----- ordering by name -----

  /** `$sort: {medication: 1}`: a missing name sorts before every string. */
  predicate NameLe(a: Option<string>, b: Option<string>)
  {
    a.None? || (b.Some? && LexLe(a.value, b.value))
  }

  lemma NameLeTotal(a: Option<string>, b: Option<string>)
    ensures NameLe(a, b) || NameLe(b, a)
  {
    if a.Some? && b.Some? {
      LexLeTotal(a.value, b.value);
    }
  }

  lemma NameLeTransitive(a: Option<string>, b: Option<string>, c: Option<string>)
    requires NameLe(a, b) && NameLe(b, c)
    ensures NameLe(a, c)
  {
    if a.Some? {
      LexLeTransitive(a.value, b.value, c.value);
    }
  }

  ghost predicate SortedByName(s: seq<StatisticsRow>)
  {
    forall i, j :: 0 <= i < j < |s| ==> NameLe(s[i].medication, s[j].medication)
  }

  /** Insert x before the first row whose name is not smaller. */
  function InsertByName(x: StatisticsRow, s: seq<StatisticsRow>): (r: seq<StatisticsRow>)
    requires SortedByName(s)
    ensures SortedByName(r)
    ensures forall y :: y in r ==> y == x || y in s
  {
    if s == [] || NameLe(x.medication, s[0].medication) then
      forall j | 0 <= j < |s|
        ensures NameLe(x.medication, s[j].medication)
      {
        if j > 0 {
          NameLeTransitive(x.medication, s[0].medication, s[j].medication);
        }
      }
      [x] + s
    else
      var t := InsertByName(x, s[1..]);
      NameLeTotal(x.medication, s[0].medication);
      assert forall y :: y in t ==> NameLe(s[0].medication, y.medication);
      [s[0]] + t
  }

  lemma {:induction false} InsertByNameContents(x: StatisticsRow, s: seq<StatisticsRow>)
    requires SortedByName(s)
    ensures multiset(InsertByName(x, s)) == multiset(s) + multiset{x}
    ensures TotalOfRows(InsertByName(x, s)) == x.totalQuantity + TotalOfRows(s)
  {
    if s != [] && !NameLe(x.medication, s[0].medication) {
      InsertByNameContents(x, s[1..]);
      assert s == [s[0]] + s[1..];
    }
  }

  function SortByName(s: seq<StatisticsRow>): (r: seq<StatisticsRow>)
    ensures SortedByName(r)
  {
    if s == [] then [] else InsertByName(s[0], SortByName(s[1..]))
  }

  lemma {:induction false} SortByNameContents(s: seq<StatisticsRow>)
    ensures multiset(SortByName(s)) == multiset(s)
    ensures TotalOfRows(SortByName(s)) == TotalOfRows(s)
  {
    if s != [] {
      SortByNameContents(s[1..]);
      InsertByNameContents(s[0], SortByName(s[1..]));
      assert s == [s[0]] + s[1..];
    }
  }

  function TotalOfRows(rows: seq<StatisticsRow>): int
  {
    if rows == [] then 0 else rows[0].totalQuantity + TotalOfRows(rows[1..])
  }

  /** `getInventoryStatistics`. */
  function InventoryStatistics(lots: seq<Lot>, meds: seq<Medication>, transactions: seq<Transaction>, now: int)
    : (r: seq<StatisticsRow>)
    ensures SortedByName(r)
  {
    var ids := MedicationIds(lots);
    MedicationIdsStocked(lots);
    SortByName(Rows(lots, meds, transactions, now, ids))
  }

  // ----- properties -----

  /** Stock of the groups named by `ids`, added up group by group. */
  function QuantityByIds(ids: seq<Id>, lots: seq<Lot>): int
  {
    if ids == [] then 0 else LotQuantity(LotsOf(lots, ids[0])) + QuantityByIds(ids[1..], lots)
  }

  lemma {:induction false} QuantityByIdsCons(ids: seq<Id>, l: Lot, rest: seq<Lot>)
    requires Distinct(ids)
    ensures QuantityByIds(ids, [l] + rest)
         == (if l.medication in ids then l.quantity else 0) + QuantityByIds(ids, rest)
  {
    if ids != [] {
      assert ([l] + rest)[1..] == rest;
      QuantityByIdsCons(ids[1..], l, rest);
      if ids[0] == l.medication {
        assert l.medication !in ids[1..];
      }
    }
  }

  /** Every lot belongs to exactly one group, so the groups' stock adds up
      to the stock of all lots. */
  lemma {:induction false} QuantityByIdsCovers(ids: seq<Id>, lots: seq<Lot>)
    requires Distinct(ids)
    requires forall l :: l in lots ==> l.medication in ids
    ensures QuantityByIds(ids, lots) == LotQuantity(lots)
  {
    if lots == [] {
      QuantityByIdsEmpty(ids);
    } else {
      assert lots == [lots[0]] + lots[1..];
      QuantityByIdsCons(ids, lots[0], lots[1..]);
      QuantityByIdsCovers(ids, lots[1..]);
    }
  }

  lemma {:induction false} QuantityByIdsEmpty(ids: seq<Id>)
    ensures QuantityByIds(ids, []) == 0
  {
    if ids != [] {
      QuantityByIdsEmpty(ids[1..]);
    }
  }

  lemma {:induction false} RowsTotal(lots: seq<Lot>, meds: seq<Medication>, transactions: seq<Transaction>, now: int, ids: seq<Id>)
    requires forall m :: m in ids ==> LotsOf(lots, m) != []
    ensures TotalOfRows(Rows(lots, meds, transactions, now, ids)) == QuantityByIds(ids, lots)
  {
    if ids != [] {
      RowsTotal(lots, meds, transactions, now, ids[1..]);
      assert Rows(lots, meds, transactions, now, ids)[1..] == Rows(lots, meds, transactions, now, ids[1..]);
    }
  }

  /** One row per catalog medication that has a lot, in name order, whose
      stock figures add up to the stock of all lots: as many rows as
      medications, and every medication's own row among them. */
  lemma StatisticsAccountsForAllStock(lots: seq<Lot>, meds: seq<Medication>, transactions: seq<Transaction>, now: int)
    ensures var r := InventoryStatistics(lots, meds, transactions, now);
            && |r| == |MedicationIds(lots)|
            && TotalOfRows(r) == LotQuantity(lots)
    ensures forall m :: m in MedicationIds(lots) ==>
              LotsOf(lots, m) != [] && RowOf(lots, meds, transactions, now, m) in InventoryStatistics(lots, meds, transactions, now)
  {
    var ids := MedicationIds(lots);
    MedicationIdsStocked(lots);
    var rows := Rows(lots, meds, transactions, now, ids);
    SortByNameContents(rows);
    forall m | m in ids
      ensures RowOf(lots, meds, transactions, now, m) in InventoryStatistics(lots, meds, transactions, now)
    {
      var i :| 0 <= i < |ids| && ids[i] == m;
      assert rows[i] in multiset(rows);
    }
    assert |SortByName(rows)| == |multiset(SortByName(rows))|;
    RowsTotal(lots, meds, transactions, now, ids);
    forall l | l in lots
      ensures l.medication in ids
    {
      var i :| 0 <= i < |lots| && lots[i] == l;
    }
    QuantityByIdsCovers(ids, lots);
  }

  /** Each output row is the row of one catalog medication's group of lots,
      with that medication's name and the sales of those lots (`GroupRow`
      states what such a row holds). */
  lemma StatisticsRowsAreGroups(lots: seq<Lot>, meds: seq<Medication>, transactions: seq<Transaction>, now: int, k: nat)
    requires k < |InventoryStatistics(lots, meds, transactions, now)|
    ensures exists m :: m in MedicationIds(lots) && LotsOf(lots, m) != []
              && InventoryStatistics(lots, meds, transactions, now)[k]
                 == GroupRow(NameOf(meds, m), LotsOf(lots, m), SalesOf(transactions, LotIds(LotsOf(lots, m))), now)
  {
    var ids := MedicationIds(lots);
    MedicationIdsStocked(lots);
    var rows := Rows(lots, meds, transactions, now, ids);
    SortByNameContents(rows);
    var row := InventoryStatistics(lots, meds, transactions, now)[k];
    assert row in multiset(rows);
    var i :| 0 <= i < |rows| && rows[i] == row;
    assert ids[i] in ids;
  }

  /** Worked example: 45 units sold since a first sale 40 days ago make two
      started months, so 22.5 per month. */
  lemma StatisticsExample()
    ensures MonthsSinceFirstSale(Some(0), 40 * MS_PER_DAY) == 2
    ensures AverageSalesPerMonth(45, 2) == 22.5
  {
  }
}

=== FILE: stock_signals.dfy ===
/** Low-stock listing and restock recommendations
    (`InventoryController.getLowInventory`, `generateRestockRecommendations`). */
module StockSignals {
  import opened Util
  import opened Entities

  /** Threshold used when the request carries none. */
  const DEFAULT_THRESHOLD: int := 10

  /** Recommended reorder is this many times the threshold. */
  const RESTOCK_MULTIPLIER: int := 2

  /** Sentinel names used when a referenced document is gone or unnamed. */
  const UNKNOWN_PHARMACY: string := "Невідома аптека"
  const UNKNOWN_MEDICATION: string := "Невідомий медикамент"

  /** `req.query.threshold || 10`: None stands for an absent or empty query
      parameter. Any other value, "0" included, is kept. */
  function EffectiveThreshold(threshold: Option<int>): (t: int)
    ensures threshold.None? ==> t == DEFAULT_THRESHOLD
    ensures threshold.Some? ==> t == threshold.value
  {
    match threshold
    case None => DEFAULT_THRESHOLD
    case Some(v) => v
  }

  /** The lots with `quantity < t`, in store order. */
  function LotsBelow(lots: seq<Lot>, t: int): (r: seq<Lot>)
    ensures |r| <= |lots|
    ensures forall l :: l in r <==> l in lots && l.quantity < t
  {
    if lots == [] then []
    else if lots[0].quantity < t then [lots[0]] + LotsBelow(lots[1..], t)
    else LotsBelow(lots[1..], t)
  }

  /** `getLowInventory`: every lot whose quantity is below the threshold. */
  function LowInventory(lots: seq<Lot>, threshold: Option<int>): (r: seq<Lot>)
    ensures forall l :: l in r <==> l in lots && l.quantity < EffectiveThreshold(threshold)
  {
    LotsBelow(lots, EffectiveThreshold(threshold))
  }

  /** With non-negative stock, a zero threshold lists nothing. */
  lemma {:induction false} LowInventoryZero(lots: seq<Lot>)
    requires forall l :: l in lots ==> l.quantity >= 0
    ensures LowInventory(lots, Some(0)) == []
  {
    if lots != [] {
      assert lots[0] in lots;
      LowInventoryZero(lots[1..]);
    }
  }

  /** Raising the threshold never drops a lot from the listing. */
  lemma LowInventoryMonotone(lots: seq<Lot>, t1: int, t2: int)
    requires t1 <= t2
    ensures forall l :: l in LowInventory(lots, Some(t1)) ==> l in LowInventory(lots, Some(t2))
  {
  }

  // ----- restock recommendations -----

  /** `(now - manufactureDate) / (expirationDays * 86400000) >= 0.95`, in exact
      integer arithmetic. A zero span divides to +Infinity for a positive
      elapsed time and to NaN or -Infinity otherwise; a negative span flips
      the comparison. */
  predicate NearExpiration(now: int, manufactureDate: int, expirationDays: int)
  {
    var elapsed := now - manufactureDate;
    var span := expirationDays * MS_PER_DAY;
    if span > 0 then 100 * elapsed >= 95 * span
    else if span == 0 then elapsed > 0
    else 100 * elapsed <= 95 * span
  }

  lemma DivAtLeast(e: real, s: real, c: real)
    requires s != 0.0
    ensures s > 0.0 ==> (e / s >= c <==> e >= c * s)
    ensures s < 0.0 ==> (e / s >= c <==> e <= c * s)
  {
    var q := e / s;
    assert q * s == e;
    if s > 0.0 {
      if q >= c { assert q * s >= c * s; }
      if e >= c * s { assert (q - c) * s >= 0.0; }
    } else {
      if q >= c { assert (q - c) * s <= 0.0; }
      if e <= c * s { assert (q - c) * s <= 0.0; }
    }
  }

  /** The integer rule agrees with the source's division for every non-zero span. */
  lemma NearExpirationIsElapsedFraction(now: int, manufactureDate: int, expirationDays: int)
    requires expirationDays != 0
    ensures NearExpiration(now, manufactureDate, expirationDays)
        <==> (now - manufactureDate) as real / (expirationDays * MS_PER_DAY) as real >= 0.95
  {
    var elapsed := now - manufactureDate;
    var span := expirationDays * MS_PER_DAY;
    assert span != 0;
    DivAtLeast(elapsed as real, span as real, 0.95);
    assert (100 * elapsed) as real == 100.0 * elapsed as real;
    assert (95 * span) as real == 95.0 * span as real;
  }

  /** The `>=` boundary: a lot exactly at 95% of its shelf life is near
      expiration, one millisecond younger it is not. */
  lemma NearExpirationBoundary(manufactureDate: int)
    ensures NearExpiration(manufactureDate + 95 * MS_PER_DAY, manufactureDate, 100)
    ensures !NearExpiration(manufactureDate + 95 * MS_PER_DAY - 1, manufactureDate, 100)
  {
  }

  datatype RestockReason = NearExpiry | LowStock

  /** The message the response carries for each reason. */
  function ReasonText(r: RestockReason): string
  {
    match r
    case NearExpiry => "Наближення до закінчення терміну придатності"
    case LowStock => "Низький рівень запасів"
  }

  datatype Recommendation = Recommendation(
    pharmacy: string,
    medication: string,
    currentQuantity: int,
    manufactureDate: int,
    expirationDays: int,
    recommendedQuantity: int,
    reason: RestockReason)

  datatype RestockError = MissingMedication

  datatype RestockResult = Recommendations(items: seq<Recommendation>) | Failed(error: RestockError)

  /** A lot calls for a recommendation when it is near expiration or low. */
  predicate Flagged(lot: Lot, med: Medication, t: int, now: int)
  {
    NearExpiration(now, lot.manufactureDate, med.expirationDays) || lot.quantity < t
  }

  /** `item.pharmacy?.name || 'Невідома аптека'`. */
  function PharmacyName(pharmacies: seq<Pharmacy>, id: Id): (n: string)
    ensures n == UNKNOWN_PHARMACY || (exists p :: p in pharmacies && p.id == id && p.name == n)
    ensures FindPharmacy(pharmacies, id).Some? && FindPharmacy(pharmacies, id).value.name != ""
        ==> n == FindPharmacy(pharmacies, id).value.name
  {
    match FindPharmacy(pharmacies, id)
    case None => UNKNOWN_PHARMACY
    case Some(p) => if p.name == "" then UNKNOWN_PHARMACY else p.name
  }

  /** The record emitted for one flagged lot. */
  function RecordFor(lot: Lot, med: Medication, pharmacies: seq<Pharmacy>, t: int, now: int): (r: Recommendation)
    ensures r.currentQuantity == lot.quantity && r.manufactureDate == lot.manufactureDate
    ensures r.recommendedQuantity == RESTOCK_MULTIPLIER * t
    ensures r.expirationDays == med.expirationDays
    ensures r.reason == NearExpiry <==> NearExpiration(now, lot.manufactureDate, med.expirationDays)
    ensures r.medication == (if med.name == "" then UNKNOWN_MEDICATION else med.name)
    ensures r.pharmacy == PharmacyName(pharmacies, lot.pharmacy)
    ensures var p := FindPharmacy(pharmacies, lot.pharmacy);
            r.pharmacy == (if p.None? || p.value.name == "" then UNKNOWN_PHARMACY else p.value.name)
  {
    Recommendation(
      PharmacyName(pharmacies, lot.pharmacy),
      if med.name == "" then UNKNOWN_MEDICATION else med.name,
      lot.quantity,
      lot.manufactureDate,
      med.expirationDays,
      t * 2,
      if NearExpiration(now, lot.manufactureDate, med.expirationDays) then NearExpiry else LowStock)
  }

  /** True when every lot's medication can be found; otherwise the source's
      `item.medication.expirationTime` throws. */
  predicate MedicationsResolved(lots: seq<Lot>, meds: seq<Medication>)
  {
    forall l :: l in lots ==> FindMedication(meds, l.medication).Some?
  }

  /** The flagged lots in store order (the `.map(...).filter(Boolean)`). */
  function FlaggedLots(lots: seq<Lot>, meds: seq<Medication>, t: int, now: int): (r: seq<Lot>)
    requires MedicationsResolved(lots, meds)
    ensures |r| <= |lots|
    ensures forall l :: l in r <==>
      l in lots && Flagged(l, FindMedication(meds, l.medication).value, t, now)
  {
    if lots == [] then []
    else
      var rest := FlaggedLots(lots[1..], meds, t, now);
      if Flagged(lots[0], FindMedication(meds, lots[0].medication).value, t, now)
      then [lots[0]] + rest else rest
  }

  function Records(flagged: seq<Lot>, meds: seq<Medication>, pharmacies: seq<Pharmacy>, t: int, now: int)
    : (r: seq<Recommendation>)
    requires MedicationsResolved(flagged, meds)
    ensures |r| == |flagged|
    ensures forall k :: 0 <= k < |r| ==>
      r[k] == RecordFor(flagged[k], FindMedication(meds, flagged[k].medication).value, pharmacies, t, now)
  {
    if flagged == [] then []
    else [RecordFor(flagged[0], FindMedication(meds, flagged[0].medication).value, pharmacies, t, now)]
         + Records(flagged[1..], meds, pharmacies, t, now)
  }

  /** `generateRestockRecommendations`. The query's `$expr` clause reads a
      field lots do not have and so admits every lot; the rule is applied to
      all lots. A lot whose medication is gone aborts the whole request. */
  function RestockRecommendations(
    lots: seq<Lot>, meds: seq<Medication>, pharmacies: seq<Pharmacy>,
    threshold: Option<int>, now: int): (r: RestockResult)
    ensures r.Failed? <==> !MedicationsResolved(lots, meds)
    ensures r.Recommendations? ==> |r.items| <= |lots|
    ensures r.Recommendations? ==>
      |r.items| == |FlaggedLots(lots, meds, EffectiveThreshold(threshold), now)|
  {
    if !MedicationsResolved(lots, meds) then Failed(MissingMedication)
    else
      var t := EffectiveThreshold(threshold);
      var flagged := FlaggedLots(lots, meds, t, now);
      Recommendations(Records(flagged, meds, pharmacies, t, now))
  }

  /** Every record comes from exactly one flagged lot, in store order: the
      k-th record describes the k-th lot that is near expiration or low, with
      quantity `2 * threshold`, the expiry reason taking priority, and the
      placeholder names for a missing or unnamed medication or pharmacy. */
  lemma RestockRecordsDescribeFlaggedLots(
    lots: seq<Lot>, meds: seq<Medication>, pharmacies: seq<Pharmacy>,
    threshold: Option<int>, now: int, k: nat)
    requires MedicationsResolved(lots, meds)
    requires k < |RestockRecommendations(lots, meds, pharmacies, threshold, now).items|
    ensures var t := EffectiveThreshold(threshold);
            var lot := FlaggedLots(lots, meds, t, now)[k];
            var med := FindMedication(meds, lot.medication).value;
            var rec := RestockRecommendations(lots, meds, pharmacies, threshold, now).items[k];
            && lot in lots
            && (NearExpiration(now, lot.manufactureDate, med.expirationDays) || lot.quantity < t)
            && rec.currentQuantity == lot.quantity
            && rec.recommendedQuantity == 2 * t
            && (rec.reason == NearExpiry <==> NearExpiration(now, lot.manufactureDate, med.expirationDays))
            && (rec.reason == LowStock <==> !NearExpiration(now, lot.manufactureDate, med.expirationDays) && lot.quantity < t)
            && rec.medication == (if med.name == "" then UNKNOWN_MEDICATION else med.name)
            && rec.pharmacy == PharmacyName(pharmacies, lot.pharmacy)
            && var p := FindPharmacy(pharmacies, lot.pharmacy);
               rec.pharmacy == (if p.None? || p.value.name == "" then UNKNOWN_PHARMACY else p.value.name)
  {
    var t := EffectiveThreshold(threshold);
    var flagged := FlaggedLots(lots, meds, t, now);
    assert flagged[k] in flagged;
  }

  /** A lot is recommended exactly when it is near expiration or low: such
      a lot is one of the flagged lots, and the record at its place is the
      record built for it. */
  lemma RestockCoversFlaggedLots(
    lots: seq<Lot>, meds: seq<Medication>, pharmacies: seq<Pharmacy>,
    threshold: Option<int>, now: int, lot: Lot)
    requires MedicationsResolved(lots, meds) && lot in lots
    ensures var r := RestockRecommendations(lots, meds, pharmacies, threshold, now);
            var t := EffectiveThreshold(threshold);
            var med := FindMedication(meds, lot.medication).value;
            && r.Recommendations?
            && ((NearExpiration(now, lot.manufactureDate, med.expirationDays) || lot.quantity < t)
                <==> exists k :: 0 <= k < |r.items| && FlaggedLots(lots, meds, t, now)[k] == lot
                                 && r.items[k] == RecordFor(lot, med, pharmacies, t, now))
  {
    var t := EffectiveThreshold(threshold);
    var flagged := FlaggedLots(lots, meds, t, now);
    if lot in flagged {
      var k :| 0 <= k < |flagged| && flagged[k] == lot;
      assert RestockRecommendations(lots, meds, pharmacies, threshold, now).items[k]
          == RecordFor(lot, FindMedication(meds, lot.medication).value, pharmacies, t, now);
    }
  }

  /** Example: shelf life 100 days, made 96 days ago, 50 in stock,
      threshold 10: one record, reason near expiry, reorder 20. */
  lemma RestockExample(now: int)
    ensures var med := Medication("m", "Aspirin", "pain", "Bayer", 100);
            var lot := Lot("l", "p", "m", 500, now - 96 * MS_PER_DAY, 50, "B1");
            var r := RestockRecommendations([lot], [med], [Pharmacy("p", "Central")], Some(10), now);
            r == Recommendations([Recommendation("Central", "Aspirin", 50, now - 96 * MS_PER_DAY, 100, 20, NearExpiry)])
  {
    var med := Medication("m", "Aspirin", "pain", "Bayer", 100);
    var lot := Lot("l", "p", "m", 500, now - 96 * MS_PER_DAY, 50, "B1");
    assert FlaggedLots([lot], [med], 10, now) == [lot];
  }
}

=== FILE: transactions_page.dfy ===
/** The transaction-history page of the web client: the filter check before
    the history request, and the request's path and query. */
module TransactionsPage {
  import opened Util
  import opened Entities
  import opened ClientForms

  /** The history request: the pharmacy travels in the path, the dates in
      the query. */
  datatype HistoryRequest = HistoryRequest(pharmacyId: Id, query: seq<QueryParam>)

  function HistoryQuery(f: FilterData): (q: seq<QueryParam>)
    ensures |q| <= 2
  {
    AppendIfSet(AppendIfSet([], "startDate", f.startDate.text), "endDate", f.endDate.text)
  }

  /** `fetchTransactions`: None when the filter check stops the request. */
  function FetchTransactions(f: FilterData): (r: Option<HistoryRequest>)
    ensures r.None? <==> !FilterValid(f)
    ensures r.Some? ==> r.value.pharmacyId == f.pharmacyId && r.value.pharmacyId != []
  {
    if FilterValid(f) then Some(HistoryRequest(f.pharmacyId, HistoryQuery(f))) else None
  }

  /** The query carries each date iff it is set, and never the pharmacy. */
  lemma HistoryQueryCarriesDates(f: FilterData)
    requires FetchTransactions(f).Some?
    ensures var q := FetchTransactions(f).value.query;
            && Lookup(q, "startDate") == Param(f.startDate.text)
            && Lookup(q, "endDate") == Param(f.endDate.text)
            && Lookup(q, "pharmacyId").None?
  {
    var q1 := AppendIfSet([], "startDate", f.startDate.text);
    forall name | name == "startDate" || name == "endDate" || name == "pharmacyId"
      ensures Lookup(HistoryQuery(f), name)
           == if name == "startDate" then Param(f.startDate.text)
              else if name == "endDate" then Param(f.endDate.text) else None
    {
      LookupAppendIfSet([], "startDate", f.startDate.text, name);
      LookupAppendIfSet(q1, "endDate", f.endDate.text, name);
    }
  }
}

=== FILE: util.dfy ===
/** Small helpers shared by the server model and the client forms. */
module Util {

  /** A value that may be missing: an absent query parameter, a reference
      whose document was deleted, an unset form field. */
  datatype Option<+T> = None | Some(value: T)

  /** The text of a query parameter the controller acts on. Its `if (x)`
      tests skip an empty parameter exactly as an absent one, so a filter
      holds `None` for both and `Some` only of non-empty text. */
  type QueryText = s: string | s != [] witness "?"

  /** Ceiling of a / b for a positive divisor, as MongoDB's `$ceil` of a
      `$divide`. Dafny's `/` floors when the divisor is positive. */
  function CeilDiv(a: int, b: int): (q: int)
    requires b > 0
    ensures b * (q - 1) < a <= b * q
  {
    var f := (-a) / b;
    assert b * f <= -a < b * f + b;
    -f
  }

  /** Lexicographic order on strings by character code, the order MongoDB
      applies to string sort keys in `$sort`. */
  predicate LexLe(a: string, b: string)
  {
    if a == [] then true
    else if b == [] then false
    else if a[0] != b[0] then a[0] < b[0]
    else LexLe(a[1..], b[1..])
  }

  lemma {:induction false} LexLeTotal(a: string, b: string)
    ensures LexLe(a, b) || LexLe(b, a)
  {
    if a != [] && b != [] && a[0] == b[0] {
      LexLeTotal(a[1..], b[1..]);
    }
  }

  lemma {:induction false} LexLeTransitive(a: string, b: string, c: string)
    requires LexLe(a, b) && LexLe(b, c)
    ensures LexLe(a, c)
  {
    if a != [] && b != [] && c != [] && a[0] == b[0] && b[0] == c[0] {
      LexLeTransitive(a[1..], b[1..], c[1..]);
    }
  }

  /** Decimal text of an integer, as JavaScript renders an integral number
      inside a template literal. */
  function IntToString(n: int): (s: string)
    ensures |s| >= 1
    ensures n >= 0 ==> forall i :: 0 <= i < |s| ==> '0' <= s[i] <= '9'
    ensures n < 0 ==> s[0] == '-'
  {
    if n < 0 then "-" + NatToString(-n) else NatToString(n)
  }

  function NatToString(n: nat): (s: string)
    ensures |s| >= 1
    ensures forall i :: 0 <= i < |s| ==> '0' <= s[i] <= '9'
    decreases n
  {
    var d := [(48 + n % 10) as char];
    if n < 10 then d else NatToString(n / 10) + d
  }

  /** The number a string of decimal digits denotes, read left to right as
      the server's numeric cast of a query parameter reads it. */
  function DigitsValue(s: string): int
  {
    if s == [] then 0 else 10 * DigitsValue(s[..|s| - 1]) + (s[|s| - 1] as int - 48)
  }

  /** A decimal numeral with an optional leading minus sign. */
  predicate Numeral(s: string)
  {
    var digits := if s != [] && s[0] == '-' then s[1..] else s;
    digits != [] && forall i :: 0 <= i < |digits| ==> '0' <= digits[i] <= '9'
  }

  /** The integer a numeral denotes. */
  function IntValue(s: string): int
  {
    if s != [] && s[0] == '-' then -DigitsValue(s[1..]) else DigitsValue(s)
  }

  /** What `IntToString` writes is a numeral that reads back as the number. */
  lemma IntToStringRoundTrip(n: int)
    ensures Numeral(IntToString(n)) && IntValue(IntToString(n)) == n
  {
    if n < 0 {
      NatToStringRoundTrip(-n);
      assert IntToString(n)[1..] == NatToString(-n);
    } else {
      NatToStringRoundTrip(n);
    }
  }

  /** Reading back what `NatToString` writes gives the number again. */
  lemma {:induction false} NatToStringRoundTrip(n: nat)
    ensures DigitsValue(NatToString(n)) == n
    decreases n
  {
    var d := [(48 + n % 10) as char];
    if n >= 10 {
      NatToStringRoundTrip(n / 10);
      var s := NatToString(n / 10) + d;
      assert s[..|s| - 1] == NatToString(n / 10);
    }
  }
}

=== FILE: writeoff_report.dfy ===
/** The write-off report (`InventoryController.getWriteOffReport`): the
    matching ledger records folded, as the source does with `reduce`, into a
    total, a per-reason tally and per-(medication name, reason) groups, the
    latter sorted by quantity and cut to the top five. */
module WriteOffReport {
  import opened Util
  import opened Entities
  import opened Grouping

  /** Query filters; None is an absent or empty query parameter. */
  datatype WriteOffFilter = WriteOffFilter(
    pharmacyId: Option<QueryText>,
    reason: Option<QueryText>,
    startDate: Option<int>,
    endDate: Option<int>)

  /** The key of a top-list group: the populated medication's name and the reason. */
  datatype NameReason = NameReason(medication: string, reason: string)

  datatype TopWriteOff = TopWriteOff(medication: string, quantity: int, reason: string)

  /** `reasons` is the source's `{ [reason]: quantity }` object, kept as its
      entries in insertion order (the amount field is unused and zero). */
  datatype WriteOffReportData = WriteOffReportData(
    totalQuantity: int,
    reasons: seq<Entry<string>>,
    topMedications: seq<TopWriteOff>)

  /** `Failed` is the 500 answer when a matching record's medication is gone
      and `w.medication.name` throws. */
  datatype WriteOffReportResult = Report(data: WriteOffReportData) | Failed

  predicate WriteOffMatches(w: WriteOff, f: WriteOffFilter)
  {
    && (f.pharmacyId.None? || w.pharmacy == f.pharmacyId.value)
    && (f.reason.None? || w.reason == f.reason.value)
    && (f.startDate.None? || f.startDate.value <= w.date)
    && (f.endDate.None? || w.date <= f.endDate.value)
  }

  /** `WriteOff.find(match)`, in ledger order. */
  function MatchingWriteOffs(ledger: seq<WriteOff>, f: WriteOffFilter): (r: seq<WriteOff>)
    ensures forall w :: w in r <==> w in ledger && WriteOffMatches(w, f)
  {
    if ledger == [] then []
    else if WriteOffMatches(ledger[0], f) then [ledger[0]] + MatchingWriteOffs(ledger[1..], f)
    else MatchingWriteOffs(ledger[1..], f)
  }

  predicate NamesResolved(ws: seq<WriteOff>, meds: seq<Medication>)
  {
    forall i :: 0 <= i < |ws| ==> FindMedication(meds, ws[i].medication).Some?
  }

  function ReasonEntries(ws: seq<WriteOff>): (r: seq<Entry<string>>)
    ensures |r| == |ws|
    ensures forall i :: 0 <= i < |ws| ==> r[i] == Entry(ws[i].reason, ws[i].quantity, 0)
  {
    if ws == [] then [] else [Entry(ws[0].reason, ws[0].quantity, 0)] + ReasonEntries(ws[1..])
  }

  function NameReasonEntries(ws: seq<WriteOff>, meds: seq<Medication>): (r: seq<Entry<NameReason>>)
    requires NamesResolved(ws, meds)
    ensures |r| == |ws|
    ensures forall i :: 0 <= i < |ws| ==>
      r[i] == Entry(NameReason(FindMedication(meds, ws[i].medication).value.name, ws[i].reason), ws[i].quantity, 0)
  {
    if ws == [] then []
    else [Entry(NameReason(FindMedication(meds, ws[0].medication).value.name, ws[0].reason), ws[0].quantity, 0)]
         + NameReasonEntries(ws[1..], meds)
  }

  function ToTopWriteOffs(groups: seq<Entry<NameReason>>): (r: seq<TopWriteOff>)
    ensures |r| == |groups|
    ensures forall i :: 0 <= i < |r| ==>
      r[i] == TopWriteOff(groups[i].key.medication, groups[i].quantity, groups[i].key.reason)
  {
    if groups == [] then []
    else [TopWriteOff(groups[0].key.medication, groups[0].quantity, groups[0].key.reason)] + ToTopWriteOffs(groups[1..])
  }

  /** The report as a function of the ledger: what the method computes. */
  function WriteOffReportOf(ledger: seq<WriteOff>, meds: seq<Medication>, f: WriteOffFilter): WriteOffReportResult
  {
    var ws := MatchingWriteOffs(ledger, f);
    if !NamesResolved(ws, meds) then Failed
    else Report(WriteOffReportData(
      WrittenOffQuantity(ws),
      Tally(ReasonEntries(ws)),
      ToTopWriteOffs(Top(SortByQuantityDesc(Tally(NameReasonEntries(ws, meds)))))))
  }

  lemma {:induction false} WrittenOffQuantityIsSum(ws: seq<WriteOff>)
    ensures WrittenOffQuantity(ws) == SumQuantity(ReasonEntries(ws))
  {
    if ws != [] {
      WrittenOffQuantityIsSum(ws[1..]);
      assert ReasonEntries(ws)[1..] == ReasonEntries(ws[1..]);
    }
  }

  lemma {:induction false} NameReasonSum(ws: seq<WriteOff>, meds: seq<Medication>)
    requires NamesResolved(ws, meds)
    ensures SumQuantity(NameReasonEntries(ws, meds)) == SumQuantity(ReasonEntries(ws))
  {
    if ws != [] {
      NameReasonSum(ws[1..], meds);
      assert NameReasonEntries(ws, meds)[1..] == NameReasonEntries(ws[1..], meds);
      assert ReasonEntries(ws)[1..] == ReasonEntries(ws[1..]);
    }
  }

  /** First fold: `reduce((sum, w) => sum + w.quantity, 0)`. */
  method SumWriteOffs(ws: seq<WriteOff>) returns (total: int)
    ensures total == WrittenOffQuantity(ws)
  {
    ghost var items := ReasonEntries(ws);
    total := 0;
    var i := 0;
    while i < |ws|
      invariant 0 <= i <= |ws|
      invariant total == SumQuantity(items[..i])
    {
      SumPrefix(items, i);
      total := total + ws[i].quantity;
      i := i + 1;
    }
    assert items[..|ws|] == items;
    WrittenOffQuantityIsSum(ws);
  }

  /** Second fold: `acc[w.reason] = (acc[w.reason] || 0) + w.quantity`. */
  method TallyReasons(ws: seq<WriteOff>) returns (reasons: seq<Entry<string>>)
    ensures reasons == Tally(ReasonEntries(ws))
  {
    ghost var items := ReasonEntries(ws);
    reasons := [];
    var i := 0;
    while i < |ws|
      invariant 0 <= i <= |ws|
      invariant reasons == Tally(items[..i])
    {
      TallyPrefix(items, i);
      reasons := Accumulate(reasons, Entry(ws[i].reason, ws[i].quantity, 0));
      i := i + 1;
    }
    assert items[..|ws|] == items;
  }

  /** Third fold: group by populated name and reason. A record whose
      medication is gone makes the source throw; here it yields `ok == false`. */
  method TallyNameReasons(ws: seq<WriteOff>, meds: seq<Medication>)
    returns (ok: bool, groups: seq<Entry<NameReason>>)
    ensures ok <==> NamesResolved(ws, meds)
    ensures ok ==> groups == Tally(NameReasonEntries(ws, meds))
  {
    groups := [];
    var i := 0;
    while i < |ws|
      invariant 0 <= i <= |ws|
      invariant NamesResolved(ws[..i], meds)
      invariant groups == Tally(NameReasonEntries(ws[..i], meds))
    {
      match FindMedication(meds, ws[i].medication)
      case None =>
        return false, groups;
      case Some(m) =>
        NameReasonStep(ws, meds, i);
        groups := Accumulate(groups, Entry(NameReason(m.name, ws[i].reason), ws[i].quantity, 0));
        i := i + 1;
    }
    assert ws[..|ws|] == ws;
    ok := true;
  }

  lemma NameReasonStep(ws: seq<WriteOff>, meds: seq<Medication>, i: nat)
    requires i < |ws| && NamesResolved(ws[..i], meds)
    requires FindMedication(meds, ws[i].medication).Some?
    ensures NamesResolved(ws[..i + 1], meds)
    ensures Tally(NameReasonEntries(ws[..i + 1], meds))
         == AddEntry(Tally(NameReasonEntries(ws[..i], meds)),
                     Entry(NameReason(FindMedication(meds, ws[i].medication).value.name, ws[i].reason), ws[i].quantity, 0))
  {
    assert ws[..i + 1][..i] == ws[..i];
    var items := NameReasonEntries(ws[..i + 1], meds);
    assert items[..i] == NameReasonEntries(ws[..i], meds);
    TallyPrefix(items, i);
    assert items[..i + 1] == items;
  }

  /** `getWriteOffReport`: the three folds, then the sort and the slice. */
  method GetWriteOffReport(ledger: seq<WriteOff>, meds: seq<Medication>, f: WriteOffFilter)
    returns (r: WriteOffReportResult)
    ensures r == WriteOffReportOf(ledger, meds, f)
  {
    var ws := MatchingWriteOffs(ledger, f);
    var total := SumWriteOffs(ws);
    var reasons := TallyReasons(ws);
    var ok, groups := TallyNameReasons(ws, meds);
    if !ok {
      return Failed;
    }
    var sorted := SortByQuantityDesc(groups);
    r := Report(WriteOffReportData(total, reasons, ToTopWriteOffs(Top(sorted))));
  }

  /** The reasons map accounts for every unit: its values sum to the total,
      which is the sum of the matching records' quantities; each reason
      appears once and carries the quantities of its records. */
  lemma WriteOffReasonsSumToTotal(ledger: seq<WriteOff>, meds: seq<Medication>, f: WriteOffFilter)
    requires WriteOffReportOf(ledger, meds, f).Report?
    ensures var d := WriteOffReportOf(ledger, meds, f).data;
            var ws := MatchingWriteOffs(ledger, f);
            && d.totalQuantity == WrittenOffQuantity(ws)
            && SumQuantity(d.reasons) == d.totalQuantity
            && KeysDistinct(d.reasons)
            && forall i :: 0 <= i < |d.reasons| ==>
                 d.reasons[i].quantity == QuantityOfKey(ReasonEntries(ws), d.reasons[i].key)
  {
    var ws := MatchingWriteOffs(ledger, f);
    WrittenOffQuantityIsSum(ws);
    TallyPreservesSums(ReasonEntries(ws));
    TallyKeysDistinct(ReasonEntries(ws));
    forall i | 0 <= i < |Tally(ReasonEntries(ws))|
      ensures Tally(ReasonEntries(ws))[i].quantity
           == QuantityOfKey(ReasonEntries(ws), Tally(ReasonEntries(ws))[i].key)
    {
      TallyGroupTotals(ReasonEntries(ws), i);
    }
  }

  /** The top list has at most five entries, largest first, and over the
      complete grouping the (name, reason) groups also add up to the total. */
  lemma WriteOffTopMedications(ledger: seq<WriteOff>, meds: seq<Medication>, f: WriteOffFilter)
    requires WriteOffReportOf(ledger, meds, f).Report?
    ensures var d := WriteOffReportOf(ledger, meds, f).data;
            var ws := MatchingWriteOffs(ledger, f);
            && |d.topMedications| <= TOP_N
            && (forall i, j :: 0 <= i < j < |d.topMedications| ==>
                  d.topMedications[i].quantity >= d.topMedications[j].quantity)
            && SumQuantity(Tally(NameReasonEntries(ws, meds))) == d.totalQuantity
            && KeysDistinct(Tally(NameReasonEntries(ws, meds)))
  {
    var ws := MatchingWriteOffs(ledger, f);
    var g := SortByQuantityDesc(Tally(NameReasonEntries(ws, meds)));
    assert SortedDesc(g);
    var top := Top(g);
    assert forall i :: 0 <= i < |top| ==> top[i] == g[i];
    WrittenOffQuantityIsSum(ws);
    NameReasonSum(ws, meds);
    TallyPreservesSums(NameReasonEntries(ws, meds));
    TallyKeysDistinct(NameReasonEntries(ws, meds));
  }

  /** The request fails exactly when some matching record's medication is gone. */
  lemma WriteOffReportFailure(ledger: seq<WriteOff>, meds: seq<Medication>, f: WriteOffFilter)
    ensures WriteOffReportOf(ledger, meds, f).Failed?
        <==> exists w :: w in MatchingWriteOffs(ledger, f) && FindMedication(meds, w.medication).None?
  {
    var ws := MatchingWriteOffs(ledger, f);
    if !NamesResolved(ws, meds) {
      var i :| 0 <= i < |ws| && FindMedication(meds, ws[i].medication).None?;
      assert ws[i] in ws;
    }
  }
}
